=== FILE: README.md ===
# Word management of a localization admin site, in Dafny

This project models the word-management core of a localization administration
web application. Words carry a key, a description, tags and up to eleven
per-language translations. The model covers:

- `WordService`: creating a word with a duplicate-key check, the three paged
  queries (`GetByUserId`, `GetNotTranslated`, `GetWords`), `GetByKey`,
  `GetAll`, and the two in-place mutators `Translate` and `Tag`;
- `AdminController`: the spreadsheet import (file-extension check, worksheet
  check, the fixed 15-column header check, one word per data row fed to
  `Create`, the closing summary message) and the page clamps of the `Users`
  and `Apps` listings.

The word repository is an in-memory store: the class `Services.WordService`
holds the stored words as a `seq<Word>` plus the next database Id, and its
methods `Create`, `Translate` and `Tag` update it in place. Each method is
proved against a pure function of the old store (`CreateStep`, `TranslateStep`,
`TagStep`); the lemmas about those functions state what the service promises.
The import loop (`Controllers.ImportLoop`, called by `Controllers.Import`)
updates the same object row by row and is proved against `ImportRows`.

Collaborators whose code is not part of this model are parameters, gathered in
the datatype `Entities.Env`: URL slugging, the language resource keys,
`IsValidForNew`, `ToUpperInvariant`, header-label localization, the message of
an `ArgumentException`, `MapEntityToModel`, role validation, and the page size.
What `SaveChanges` reports is a boolean argument; a failed commit leaves the
store as it was.

Files: `wrappers.dfy` (Option, Result), `text.dfy` (splitting on a separator,
decimal rendering), `entities.dfy` (languages, words, tags, models, `Env`),
`paging.dfy` (clamp, page count, filtering, ordering by Id, skip/take),
`word_service.dfy` (module `Services`), `admin_controller.dfy` (module
`Controllers`).

## Model

| member | source | states |
|---|---|---|
| Text.SplitAll | src/client/SetLocale.Client.Web/Services/WordService.cs:47 | String.Split without options: the pieces of the text between separators, empty pieces included; always at least one piece, none holding the separator |
| Text.RemoveEmpty | src/client/SetLocale.Client.Web/Services/WordService.cs:47 | StringSplitOptions.RemoveEmptyEntries: the non-empty pieces, in order; every non-empty piece is kept |
| Text.SplitRemoveEmpty | src/client/SetLocale.Client.Web/Services/WordService.cs:47 | the tag tokens are non-empty and contain no comma; every non-empty comma-separated piece of the text is a token and every token is such a piece |
| Text.RemoveEmptyAppend | src/client/SetLocale.Client.Web/Services/WordService.cs:47 | removing empty entries works piece by piece, so the tokens keep the order and the multiplicity of the pieces |
| Text.RemoveEmptySingle | src/client/SetLocale.Client.Web/Services/WordService.cs:47 | a single piece is kept exactly when it is not empty |
| Text.RemoveEmptyKeepsNonEmpty | src/client/SetLocale.Client.Web/Services/WordService.cs:47 | non-empty pieces are all kept, in order |
| Text.SplitRemoveEmptyJoin | src/client/SetLocale.Client.Web/Controllers/AdminController.cs:263 | a comma list of non-empty, comma-free tokens splits back into exactly those tokens, in order (as at WordService.cs line 47 too) |
| Text.JoinSplitAll | src/client/SetLocale.Client.Web/Services/WordService.cs:47 | splitting on the separator loses nothing: joining the pieces gives the text back |
| Text.SplitAllJoin | src/client/SetLocale.Client.Web/Services/WordService.cs:47 | splitting a join of separator-free pieces gives the pieces back |
| Text.NatToString | src/client/SetLocale.Client.Web/Controllers/AdminController.cs:207-209 | the "{0}" rendering of a count: decimal digits, no sign or grouping, at least one digit |
| Text.NatToStringRoundTrip | src/client/SetLocale.Client.Web/Controllers/AdminController.cs:207 | the decimal rendering of a count reads back as that count |
| Text.NatToStringInjective | src/client/SetLocale.Client.Web/Controllers/AdminController.cs:209 | different counts render differently |
| Text.DigitsBeforeDot | src/client/SetLocale.Client.Web/Controllers/AdminController.cs:207-209 | a digit string followed by '.' is recovered uniquely from the text it starts |
| Entities.Lookup | src/client/SetLocale.Client.Web/Services/WordService.cs:69-95 | the if/else chain selects the first language, in the order TR..TK, whose key matches, and selects none exactly when no language key matches |
| Entities.Int32Increment | src/client/SetLocale.Client.Web/Services/WordService.cs:208 | the count's `++` stays within Int32: one more, except that 2147483647 wraps to -2147483648 |
| Entities.LookupCode | src/client/SetLocale.Client.Web/Services/WordService.cs:200-205 | each language's upper-case code selects that language's Translation_ field |
| Paging.ClampPage | src/client/SetLocale.Client.Web/Services/WordService.cs:108-111 | a page below 1 becomes 1; any other page is kept |
| Paging.PageCount | src/client/SetLocale.Client.Web/Services/WordService.cs:120-121 | the number of pages of the page size that the total fills, the last one possibly partial; 0 for no items |
| Paging.PageCountIsCeiling | src/client/SetLocale.Client.Web/Services/WordService.cs:120-121 | the page count is the ceiling of total / page size: its pages hold every item and one page fewer would not |
| Paging.Where | src/client/SetLocale.Client.Web/Services/WordService.cs:118 | the filtered words are stored words that satisfy the filter, and every stored word that satisfies it is kept |
| Paging.WhereAppend | src/client/SetLocale.Client.Web/Services/WordService.cs:118 | filtering works piece by piece, so the kept words stay in store order with their multiplicity |
| Paging.WhereSingle | src/client/SetLocale.Client.Web/Services/WordService.cs:118 | a single word is kept exactly when it satisfies the filter |
| Paging.WhereKeepsUniqueIds | src/client/SetLocale.Client.Web/Services/WordService.cs:170 | filtering keeps Ids distinct |
| Paging.SortByIdDesc | src/client/SetLocale.Client.Web/Services/WordService.cs:128 | OrderByDescending(Id) is a permutation of its input with Ids non-increasing |
| Paging.SortByIdDescStrict | src/client/SetLocale.Client.Web/Services/WordService.cs:180 | with distinct Ids the ordering is strictly descending |
| Paging.Window | src/client/SetLocale.Client.Web/Services/WordService.cs:128 | Skip/Take returns the elements from position skip on, at most take of them, and none when skip is past the end |
| Paging.OneBasedNumber | src/client/SetLocale.Client.Web/Services/WordService.cs:108-126 | the page served: the request clamped to at least 1, then reset to 1 when past the page count |
| Paging.PageAt | src/client/SetLocale.Client.Web/Services/WordService.cs:128-130 | page n (1-based): the matching words sorted by Id descending, skipping page size times (n - 1) of them and taking a page, with the page size and total count |
| Paging.OneBasedPage | src/client/SetLocale.Client.Web/Services/WordService.cs:106-130 | the paging rule of GetByUserId and GetNotTranslated: PageAt of the page OneBasedNumber serves |
| Paging.OneBasedPageShape | src/client/SetLocale.Client.Web/Services/WordService.cs:106-131 | the page keeps the page size and total count, holds at most a page of matching words newest first, and its number is in range or 1 |
| Paging.OneBasedPageContents | src/client/SetLocale.Client.Web/Services/WordService.cs:123-128 | the page served is the requested one when in range and page 1 otherwise, and holds the Id-descending matching words after skipping page size times (number - 1) of them |
| Paging.OutOfRangePageIsFirstPage | src/client/SetLocale.Client.Web/Services/WordService.cs:123-126 | a page below 1 or past the last page gives the same result as page 1 |
| Paging.InRangePage | src/client/SetLocale.Client.Web/Services/WordService.cs:123-128 | a page within range is served as requested |
| Paging.EarlierPageIsNewer | src/client/SetLocale.Client.Web/Services/WordService.cs:128 | every word on page k has an Id at least that of every word on page k + 1, strictly larger with distinct Ids |
| Services.Any | src/client/SetLocale.Client.Web/Services/WordService.cs:41 | Repository.Any: some stored word satisfies the filter |
| Services.KeyIsAndUntagged | src/client/SetLocale.Client.Web/Services/WordService.cs:224 | the filter of Tag: the key matches and none of the word's tags has the name |
| Services.FindOne | src/client/SetLocale.Client.Web/Services/WordService.cs:194 | the repository look-up returns the first word the filter accepts, and none exactly when no word is accepted |
| Services.GetByKey | src/client/SetLocale.Client.Web/Services/WordService.cs:133-137 | returns a stored word with the key, and none exactly when no stored word has it |
| Services.GetByKeyUnique | src/client/SetLocale.Client.Web/Services/WordService.cs:133-137 | with unique keys GetByKey returns the one word with that key |
| Services.Translations | src/client/SetLocale.Client.Web/Services/WordService.cs:69-95 | the translation fields after the entries are applied in order, each entry setting the field its language key routes to |
| Services.TranslationsLastWins | src/client/SetLocale.Client.Web/Services/WordService.cs:69-95 | a language field is set exactly when some entry's key selects it, and then holds the value of the last such entry; unrecognised entries change nothing |
| Services.NewWord | src/client/SetLocale.Client.Web/Services/WordService.cs:46-95 | the word Create builds: slugged key, description or "", TranslationCount = number of entries, authors, the tags of the token list, translation fields only when translated, and the next Id |
| Services.NewWordContents | src/client/SetLocale.Client.Web/Services/WordService.cs:46-95 | the created word has the slugged key, the description or "", CreatedBy = UpdatedBy = the model's author, TranslationCount = number of entries, one tag per non-empty token in order with its slug and author, and translation fields only when the model is translated |
| Services.CreateStep | src/client/SetLocale.Client.Web/Services/WordService.cs:33-104 | Create on a store: no word for an invalid model, a stored slug or a failed commit, otherwise the slug and the store with the new word appended under the next Id |
| Services.CreateRejects | src/client/SetLocale.Client.Web/Services/WordService.cs:35-44 | an invalid model, or one whose slugged key is stored, returns none and leaves the store unchanged |
| Services.CreateOutcome | src/client/SetLocale.Client.Web/Services/WordService.cs:33-104 | Create succeeds exactly when the model is valid, its slugged key is new and the commit succeeds; it then appends exactly one word and returns the slug; otherwise nothing changes |
| Services.CreateTwiceAddsAtMostOne | src/client/SetLocale.Client.Web/Services/WordService.cs:40-44 | two Creates of the same model do not both succeed and add at most one word |
| Services.CreateKeepsStoreValid | src/client/SetLocale.Client.Web/Services/WordService.cs:98-103 | Create keeps Ids increasing and below the next Id, and keeps keys unique |
| Services.CreatedWordIsRetrievable | src/client/SetLocale.Client.Web/Services/WordService.cs:98-103 | after a successful Create, GetByKey of the slug returns the new word |
| Services.TranslateStep | src/client/SetLocale.Client.Web/Services/WordService.cs:185-214 | Translate on the stored words: false when a text is empty, no word has the key, the upper-cased language names no field or the commit fails; otherwise true and the first word with the key translated |
| Services.Translated | src/client/SetLocale.Client.Web/Services/WordService.cs:207-209 | the translated word: the one field set, the count incremented as an Int32, marked translated |
| Services.TranslateOutcome | src/client/SetLocale.Client.Web/Services/WordService.cs:185-214 | Translate succeeds exactly when the three texts are non-empty, a word has the key, Translation_{upper(language)} names a field and the commit succeeds; it then sets only that field of the first such word, increments its count as an Int32 and marks it translated; on failure nothing changes |
| Services.TranslateUnknownLanguage | src/client/SetLocale.Client.Web/Services/WordService.cs:200-205 | an unrecognised language returns false and changes nothing |
| Services.TranslatedWordIsRetrievable | src/client/SetLocale.Client.Web/Services/WordService.cs:207-213 | after a successful Translate, GetByKey finds the word with the new translation and the count incremented as an Int32 |
| Services.FindOneKeySameKeys | src/client/SetLocale.Client.Web/Services/WordService.cs:194 | changing words without changing their keys keeps the first match of a key |
| Services.TagStep | src/client/SetLocale.Client.Web/Services/WordService.cs:216-242 | Tag on the stored words: false when a text is empty, no word with the key lacks the tag or the commit fails; otherwise true and that first word's tags replaced by the one new tag |
| Services.TagOutcome | src/client/SetLocale.Client.Web/Services/WordService.cs:216-242 | Tag succeeds exactly when both texts are non-empty, some word with the key has no tag of that name and the commit succeeds; it then replaces that word's tags with the single tag {name, slug(name), CreatedBy 1}; on failure nothing changes |
| Services.TagAlreadyPresent | src/client/SetLocale.Client.Web/Services/WordService.cs:224-228 | with unique keys, tagging a word with a name it already carries returns false and changes nothing |
| Services.TagTwiceFails | src/client/SetLocale.Client.Web/Services/WordService.cs:224-237 | with unique keys, after a successful Tag the same Tag again returns false |
| Services.GetByUserId | src/client/SetLocale.Client.Web/Services/WordService.cs:106-131 | none exactly when userId < 1; otherwise the requested page when in range and page 1 otherwise, holding that user's words sorted by Id descending after skipping page size times (number - 1) of them: at most a page, newest first (strictly with distinct Ids), with the count of that user's words |
| Services.GetNotTranslated | src/client/SetLocale.Client.Web/Services/WordService.cs:163-183 | the requested page when in range and page 1 otherwise, holding the untranslated words sorted by Id descending after skipping page size times (number - 1) of them: at most a page, newest first (strictly with distinct Ids), with the count of untranslated words |
| Services.GetByUserIdOutOfRange | src/client/SetLocale.Client.Web/Services/WordService.cs:123-126 | a page below 1 or past the user's last page gives page 1 |
| Services.GetNotTranslatedOutOfRange | src/client/SetLocale.Client.Web/Services/WordService.cs:175-178 | a page below 1 or past the last page gives page 1 |
| Services.GetByUserIdPagesDescend | src/client/SetLocale.Client.Web/Services/WordService.cs:128 | a user's words on page k are all newer than those on page k + 1 |
| Services.GetNotTranslatedPagesDescend | src/client/SetLocale.Client.Web/Services/WordService.cs:180 | untranslated words on page k are all newer than those on page k + 1 |
| Services.GetWords | src/client/SetLocale.Client.Web/Services/WordService.cs:139-161 | reports page index max(page, 1) - 1, or 1 when that index exceeds the page count, and returns the page-size window starting at page size times that index of all words newest first |
| Services.GetWordsPastLastPageIsEmpty | src/client/SetLocale.Client.Web/Services/WordService.cs:146-158 | requesting page count + 1 returns no words |
| Services.GetWordsFarPageIsSecondPage | src/client/SetLocale.Client.Web/Services/WordService.cs:153-156 | a page further out returns the second page, not the first |
| Services.GetWordsInRangeAgrees | src/client/SetLocale.Client.Web/Services/WordService.cs:158 | within the page range GetWords returns the same words as the one-based rule, under a number one lower |
| Services.GetWordsOffByOne | src/client/SetLocale.Client.Web/Services/WordService.cs:146-160 | with one stored word, page 1 reports number 0 and page 2 is empty, where the one-based rule serves the word as page 1 |
| Services.GetWordsPagesDescend | src/client/SetLocale.Client.Web/Services/WordService.cs:158 | within the page range, words on page k are at least as recent as those on page k + 1, strictly with distinct Ids |
| Services.GetWordsOneBased | src/client/SetLocale.Client.Web/Services/WordService.cs:139-161 | GetWords under the paging rule of the other two queries: a number of at least 1 and at most a page of words newest first |
| Services.GetWordsOneBasedOutOfRange | src/client/SetLocale.Client.Web/Services/WordService.cs:153-156 | under the one-based rule an out-of-range page gives page 1 |
| Services.BuildTags | src/client/SetLocale.Client.Web/Services/WordService.cs:46-56 | the tag loop makes one tag per name, in order, with its slug and author |
| Services.TranslationFields | src/client/SetLocale.Client.Web/Services/WordService.cs:69-95 | the translation loop leaves the fields the entries select, entry by entry |
| Services.WordService.constructor | src/client/SetLocale.Client.Web/Services/WordService.cs:28-31 | a service over a store whose Ids increase starts valid |
| Services.WordService.StoredIdsUnique | src/client/SetLocale.Client.Web/Services/WordService.cs:98-103 | a valid service's words have distinct Ids, as the strict page-order lemmas require |
| Services.WordService.Create | src/client/SetLocale.Client.Web/Services/WordService.cs:33-104 | returns and stores what CreateStep gives for the old store, and keeps the store valid |
| Services.WordService.Translate | src/client/SetLocale.Client.Web/Services/WordService.cs:185-214 | returns and stores what TranslateStep gives for the old words; the next Id is unchanged |
| Services.WordService.Tag | src/client/SetLocale.Client.Web/Services/WordService.cs:216-242 | returns and stores what TagStep gives for the old words; the next Id is unchanged |
| Services.WordService.GetAll | src/client/SetLocale.Client.Web/Services/WordService.cs:244-249 | returns every stored word, in store order |
| Controllers.ExtensionFrom | src/client/SetLocale.Client.Web/Controllers/AdminController.cs:154-156 | the FileInfo.Extension scan from the end of the name: stops at the last '.' (empty when it ends the name) or at a path separator (empty) |
| Controllers.Extension | src/client/SetLocale.Client.Web/Controllers/AdminController.cs:154-156 | the extension is empty or a suffix of the name that starts with '.' and holds no further '.' or path separator |
| Controllers.ExtensionIffEndsWith | src/client/SetLocale.Client.Web/Controllers/AdminController.cs:156 | a name has the extension ".xlsx" exactly when it ends with ".xlsx" |
| Controllers.TranslationColumnHeader | src/client/SetLocale.Client.Web/Controllers/AdminController.cs:233-243 | the header of each translation column names that column's language |
| Controllers.HeaderCellMatches | src/client/SetLocale.Client.Web/Controllers/AdminController.cs:223-224 | the header cell is a string equal to the localized label; an empty or non-string cell never matches |
| Controllers.CheckColumnsFrom | src/client/SetLocale.Client.Web/Controllers/AdminController.cs:221-243 | the checks from a column on pass exactly when every header cell from there to 15 holds its localized label |
| Controllers.CheckExcelFileColumns | src/client/SetLocale.Client.Web/Controllers/AdminController.cs:215-252 | the header passes exactly when all 15 cells of row 1 hold their labels in the fixed order |
| Controllers.HeaderRejectionNamesFirstMismatch | src/client/SetLocale.Client.Web/Controllers/AdminController.cs:221-251 | a rejection carries the message of the first mismatching column's resource key |
| Controllers.CellText | src/client/SetLocale.Client.Web/Controllers/AdminController.cs:259-287 | a cell read as text, "" when the cell is empty |
| Controllers.CellInt32 | src/client/SetLocale.Client.Web/Controllers/AdminController.cs:276 | Convert.ToInt32 of the count cell: 0 for an empty cell, none when the conversion throws |
| Controllers.RowWord | src/client/SetLocale.Client.Web/Controllers/AdminController.cs:254-292 | CreateWordFromRow as a value: the row's word, or the exception its key cell or count cell throws |
| Controllers.RowWordContents | src/client/SetLocale.Client.Web/Controllers/AdminController.cs:254-292 | an empty key cell throws first, then an unconvertible count; otherwise the word has the key text, description or "", one tag per non-empty token in order with its slug as URL name and CreatedBy 0, the converted count, every language field set to its column's text or "", and is marked translated |
| Controllers.CreateWordFromRow | src/client/SetLocale.Client.Web/Controllers/AdminController.cs:254-292 | the method builds exactly the row's word, or the row's error |
| Controllers.RowModel | src/client/SetLocale.Client.Web/Controllers/AdminController.cs:197-198 | the model handed to Create: MapEntityToModel of the row's word, with CreatedBy set to the importing user |
| Controllers.ImportRow | src/client/SetLocale.Client.Web/Controllers/AdminController.cs:193-204 | one pass of the loop body: read the row, hand its word to Create, count it as added or skipped |
| Controllers.ImportRowStep | src/client/SetLocale.Client.Web/Controllers/AdminController.cs:193-204 | one row either throws with nothing changed, or counts one word, as added exactly when Create succeeds for its model and as skipped otherwise, and appends only an added word, keeping the store valid |
| Controllers.ImportRowStoredKeyIsSkipped | src/client/SetLocale.Client.Web/Controllers/AdminController.cs:200-204 | a row whose slugged key is already stored is counted as skipped and leaves the store unchanged |
| Controllers.ImportedRowIsRetrievable | src/client/SetLocale.Client.Web/Controllers/AdminController.cs:200-204 | a row counted as added is found by GetByKey under its slugged key |
| Controllers.ImportRows | src/client/SetLocale.Client.Web/Controllers/AdminController.cs:187-205 | the loop over rows 2 to the last row, in order, ending at the first row that throws |
| Controllers.ImportRowsCounts | src/client/SetLocale.Client.Web/Controllers/AdminController.cs:187-205 | without a failure added + skipped = max(0, last row - 1); with a failure every row before it is counted; the store grows by exactly the added words and stays valid with unique keys |
| Controllers.FailureIsFinal | src/client/SetLocale.Client.Web/Controllers/AdminController.cs:191-194 | a failed loop ends with the outcome it had at the failing row |
| Controllers.NullKeyStopsImport | src/client/SetLocale.Client.Web/Controllers/AdminController.cs:258 | a row with an empty key cell makes the loop fail at that row or earlier |
| Controllers.LaterRowsKeepFailure | src/client/SetLocale.Client.Web/Controllers/AdminController.cs:191-194 | after a failure, later rows change nothing |
| Controllers.SummaryMessage | src/client/SetLocale.Client.Web/Controllers/AdminController.cs:207-209 | "Added new words: {added}." followed by " Words skipped: {skipped}." only when some words were skipped |
| Controllers.SkippedNote | src/client/SetLocale.Client.Web/Controllers/AdminController.cs:208-209 | the skipped-words sentence, empty when no word was skipped |
| Controllers.SummaryMessageDeterminesCounts | src/client/SetLocale.Client.Web/Controllers/AdminController.cs:207-209 | the summary message determines both counts: different counts never give the same message |
| Controllers.ImportSpec | src/client/SetLocale.Client.Web/Controllers/AdminController.cs:151-213 | the import on a store: the format message, the worksheet message, the header message, the failing row, or the summary of the row loop and the store it leaves |
| Controllers.ImportRejectsOtherFormats | src/client/SetLocale.Client.Web/Controllers/AdminController.cs:154-160 | a name not ending in ".xlsx" gets the fixed format message and nothing is stored |
| Controllers.ImportRejectsEmptyWorkbook | src/client/SetLocale.Client.Web/Controllers/AdminController.cs:170-174 | a workbook without worksheets gets "No Worksheets in selected file" and nothing is stored |
| Controllers.ImportRejectsBadHeader | src/client/SetLocale.Client.Web/Controllers/AdminController.cs:179-184 | a bad header on the first worksheet shows the first mismatch's message and no row is processed |
| Controllers.ImportSummaryCounts | src/client/SetLocale.Client.Web/Controllers/AdminController.cs:187-209 | a summary reporting added and skipped words means added + skipped = max(0, last row - 1) and exactly the added words were appended |
| Controllers.ImportLoop | src/client/SetLocale.Client.Web/Controllers/AdminController.cs:187-205 | the loop's counters, failure and store are those ImportRows gives for the old store |
| Controllers.Import | src/client/SetLocale.Client.Web/Controllers/AdminController.cs:151-213 | the result and the new store are those ImportSpec gives for the old store, and the store stays valid |
| Controllers.UsersQuery | src/client/SetLocale.Client.Web/Controllers/AdminController.cs:83-102 | the page is clamped to at least 1, and the query is by role exactly when the id is a valid role |
| Controllers.AppsPage | src/client/SetLocale.Client.Web/Controllers/AdminController.cs:119-126 | the requested page is clamped to at least 1 |

## Left out

- Reading the upload: the stream copy, EPPlus and the `FileInfo` object are not modelled; a workbook is a sequence of worksheets, each a cell function plus its last used row, and the first element is `Worksheets[1]`.
- Path normalisation by `FileInfo` (trailing dots and spaces, invalid characters) is not modelled; the extension is read from the name as given.
- `Convert.ToInt32` of the count cell is a per-cell value supplied with the cell (none when the conversion throws); its parsing and rounding rules are not modelled.
- `Math.Ceiling` over a `double` is modelled as integer ceiling division, which it equals for the counts involved.
- `ToUrlSlug`, `LocalizationString`, `LanguageModel.*().Key`, `IsValidForNew`, `MapEntityToModel`, `ToUpperInvariant`, `SetLocaleRole.IsValid` and `ConstHelper.PageSize` are parameters; their behaviour is not modelled.
- The repository is an in-memory sequence: `FindOne` returns the first match, `FindAll` keeps store order, and a new word gets the next Id; the database and Entity Framework behind `IRepository` are not modelled.
- A failed `SaveChanges` leaves the store unchanged; that an Entity Framework context may still track the changed entity afterwards is not modelled.
- The reflective look-up of `Translation_{LANG}` is a look-up of the upper-cased language among the eleven codes; the `Word` entity class is not part of this model.
- Task and async plumbing is dropped: `Create` returns an Option (a null Task is none), the other service members return plain values.
- `Controllers.CheckExcelFileColumns`: the message of the thrown `ArgumentException` is the parameter `argumentMessage("Column unrecognized.", key)`; its text is not modelled. The source names the resource key, not the localized label, in that exception; the model follows the source.
- `Controllers.HeaderCellMatches`: a null localized label, which `object.Equals` would match against an empty header cell, is not modelled; labels are always strings.
- `Controllers.ImportRows`: a row that throws ends the import with the earlier rows already committed, as the source does; nothing is rolled back.
- A POST without a file (a null `file`, which throws at `file.FileName`) is not modelled; the import always receives a file name.
- A `WordModel` whose `Tag` or `Translations` is null, which makes `Create` throw unless `IsValidForNew` rejects it, is not modelled; both are always present.
- The `Word` entity class is not part of this model; its `TranslationCount` is taken to be an Int32, as `Convert.ToInt32` feeds it, and `Entities.Int32Increment` models the unchecked `++`. Counts read from cells are not checked to lie within Int32.
- `Paging.SortByIdDesc`: the relative order of words with equal Ids (OrderByDescending is stable) is not stated; with distinct Ids, which a valid store has, the order is fully determined.
- The `PagedList` constructor's derived flags (has next/previous page, total page count) are not modelled; a page is its number, page size, total count and items.
- The user and application services behind `Users` and `Apps` are not modelled; only the query each action makes is.
- The read-only queries `GetByUserId`, `GetByKey`, `GetWords` and `GetNotTranslated`, members of `WordService` in the program, are functions of the service's stored words (`svc.words`) in the model rather than methods of the class; `GetAll` is a method.
- `NewTranslator`, the commented-out authorization, `Index`, `User.Identity` (the importing user's id is a parameter) and view rendering are not modelled.

## Findings

| source | as written | input that shows it | evidently intended | confidence | as-written member | corrected member |
|---|---|---|---|---|---|---|
| src/client/SetLocale.Client.Web/Services/WordService.cs:146-160 | the page is made zero-based before the range check, so page count + 1 passes the check and returns no words, a further page is reset to index 1 (the second page), and the reported number is zero-based | one stored word: page 2 returns an empty page and page 1 reports number 0 | the rule of GetByUserId and GetNotTranslated: an out-of-range page gives page 1, and the number is one-based | medium, not executed | Services.GetWordsOffByOne | Services.GetWordsOneBasedOutOfRange |

=== FILE: admin_controller.dfy ===
/** The administration controller's spreadsheet import: the file-format and
    header checks, the reading of one word per row, the loop that hands each
    row to the word service and the summary message, plus the page clamping
    of the user and application listings. */
module Controllers {
  import opened Wrappers
  import opened Text
  import opened Entities
  import opened Paging
  import opened Services

  // ---------------------------------------------------------------------
  // Worksheets
  // ---------------------------------------------------------------------

  /** A non-empty cell: whether its value is a string, its ToString() text, and
      what Convert.ToInt32 makes of it (None when the conversion throws). */
  datatype Cell = Cell(isString: bool, text: string, int32: Option<int>)

  /** A worksheet: the cell at (row, column), both 1-based, None for an empty
      cell; `endRow` is the last row of the used range. */
  datatype Worksheet = Worksheet(cell: (int, int) -> Option<Cell>, endRow: int)

  /** A cell read as text, empty when the cell is empty. */
  function CellText(c: Option<Cell>): string
  {
    if c.Some? then c.value.text else ""
  }

  /** Convert.ToInt32 of a cell value: 0 for an empty cell. */
  function CellInt32(c: Option<Cell>): Option<int>
  {
    if c.Some? then c.value.int32 else Some(0)
  }

  // ---------------------------------------------------------------------
  // File format
  // ---------------------------------------------------------------------

  const Separators: set<char> := {'\\', '/', ':'}

  /** An extension: a '.' followed by at least one character, none of them a
      '.' or a path separator. */
  predicate IsExtension(ext: string)
  {
    |ext| >= 2 && ext[0] == '.' && forall k :: 1 <= k < |ext| ==> ext[k] != '.' && ext[k] !in Separators
  }

  predicate EndsWith(s: string, suffix: string)
  {
    |suffix| <= |s| && s[|s| - |suffix|..] == suffix
  }

  /** The extension scan over name[..i], knowing name[i..] holds no '.' and no separator. */
  function ExtensionFrom(name: string, i: nat): (r: string)
    requires i <= |name|
    requires forall k :: i <= k < |name| ==> name[k] != '.' && name[k] !in Separators
    ensures r == "" || (IsExtension(r) && EndsWith(name, r))
    decreases i
  {
    if i == 0 then ""
    else if name[i - 1] == '.' then (if i == |name| then "" else name[i - 1..])
    else if name[i - 1] in Separators then ""
    else ExtensionFrom(name, i - 1)
  }

  /** The extension of a file name: from its last '.' to the end, or empty when
      there is no '.' after the last separator or the '.' is the last character. */
  function Extension(name: string): (r: string)
    ensures r == "" || (IsExtension(r) && EndsWith(name, r))
  {
    ExtensionFrom(name, |name|)
  }

  lemma {:induction false} ExtensionFromSuffix(name: string, ext: string, i: nat)
    requires IsExtension(ext) && EndsWith(name, ext)
    requires |name| - |ext| < i <= |name|
    requires forall k :: i <= k < |name| ==> name[k] != '.' && name[k] !in Separators
    ensures ExtensionFrom(name, i) == ext
    decreases i
  {
    var start := |name| - |ext|;
    assert name[i - 1] == ext[i - 1 - start];
    if i - 1 > start {
      ExtensionFromSuffix(name, ext, i - 1);
    }
  }

  /** A name has a given extension exactly when it ends with it. */
  lemma ExtensionIffEndsWith(name: string, ext: string)
    requires IsExtension(ext)
    ensures Extension(name) == ext <==> EndsWith(name, ext)
  {
    if EndsWith(name, ext) {
      ExtensionFromSuffix(name, ext, |name|);
    }
  }

  // ---------------------------------------------------------------------
  // Header row
  // ---------------------------------------------------------------------

  /** The resource keys of the 15 header labels, column 1 first. */
  const HeaderKeys: seq<string> := [
    "key", "description", "tags", "translation_count",
    "column_header_translation_tr", "column_header_translation_en",
    "column_header_translation_az", "column_header_translation_cn",
    "column_header_translation_fr", "column_header_translation_gr",
    "column_header_translation_it", "column_header_translation_kz",
    "column_header_translation_ru", "column_header_translation_sp",
    "column_header_translation_tk"]

  /** The column holding language `l`'s translation. */
  function TranslationColumn(l: Language): (column: int)
    ensures 5 <= column <= 15
  {
    5 + Position(l)
  }

  /** Each translation column's header names the language's own code, in lower case. */
  lemma TranslationColumnHeader(l: Language)
    ensures HeaderKeys[TranslationColumn(l) - 1] == "column_header_translation_" + ToLowerAscii(Code(l))
  {
    var code := Code(l);
    assert |code| == 2;
    assert ToLowerAscii(code) == [code[0] - 'A' + 'a', code[1] - 'A' + 'a'];
  }

  /** Header cell `column` holds a string equal to its localized label. */
  predicate HeaderCellMatches(env: Env, sheet: Worksheet, column: int)
    requires 1 <= column <= 15
  {
    var c := sheet.cell(1, column);
    c.Some? && c.value.isString && c.value.text == env.localize(HeaderKeys[column - 1])
  }

  datatype HeaderCheck = HeaderOk | HeaderRejected(message: string)

  /** The header checks of columns `column`..15, in order; the first mismatch
      throws, and its message names that column's resource key. */
  function CheckColumnsFrom(env: Env, sheet: Worksheet, column: int): (r: HeaderCheck)
    requires 1 <= column <= 16
    ensures r.HeaderOk? <==> forall c :: column <= c <= 15 ==> HeaderCellMatches(env, sheet, c)
    decreases 16 - column
  {
    if column == 16 then HeaderOk
    else if !HeaderCellMatches(env, sheet, column) then
      HeaderRejected(env.argumentMessage("Column unrecognized.", HeaderKeys[column - 1]))
    else CheckColumnsFrom(env, sheet, column + 1)
  }

  /** A rejection names the first column, from `column` on, whose header
      cell does not carry its label. */
  lemma {:induction false} HeaderRejectionNamesFirstMismatch(env: Env, sheet: Worksheet, column: int, c: int)
    requires 1 <= column <= c <= 15
    requires !HeaderCellMatches(env, sheet, c)
    requires forall d :: column <= d < c ==> HeaderCellMatches(env, sheet, d)
    ensures CheckColumnsFrom(env, sheet, column)
         == HeaderRejected(env.argumentMessage("Column unrecognized.", HeaderKeys[c - 1]))
    decreases c - column
  {
    if column < c {
      HeaderRejectionNamesFirstMismatch(env, sheet, column + 1, c);
    }
  }

  /** CheckExcelFileColumns: all 15 header cells carry their labels, or the
      message of the first that does not. */
  function CheckExcelFileColumns(env: Env, sheet: Worksheet): (r: HeaderCheck)
    ensures r.HeaderOk? <==> forall c :: 1 <= c <= 15 ==> HeaderCellMatches(env, sheet, c)
  {
    CheckColumnsFrom(env, sheet, 1)
  }

  // ---------------------------------------------------------------------
  // Rows
  // ---------------------------------------------------------------------

  /** Why reading a row throws: its key cell is empty, or its translation
      count cell does not convert to an Int32. */
  datatype RowError = NullKey | CountNotConvertible

  /** The word CreateWordFromRow builds from row `row`. */
  function RowWord(env: Env, sheet: Worksheet, row: int): Result<Word, RowError>
  {
    var key := sheet.cell(row, 1);
    if key.None? then Failure(NullKey)
    else
      var count := CellInt32(sheet.cell(row, 4));
      if count.None? then Failure(CountNotConvertible)
      else
        Ok(Word(
          0, key.value.text, CellText(sheet.cell(row, 2)), true, count.value, 0, 0,
          MakeTags(env.slug, TagNames(CellText(sheet.cell(row, 3))), 0),
          map l: Language | l in Languages :: CellText(sheet.cell(row, TranslationColumn(l)))))
  }

  /** What a row yields: an empty key cell fails first, then an unconvertible
      count; otherwise a translated word with one tag per token of column 3
      (its slug as URL name, created by 0) and whose every language field
      holds the text of its column, empty for an empty cell. */
  lemma RowWordContents(env: Env, sheet: Worksheet, row: int)
    ensures var r := RowWord(env, sheet, row);
      && (r == Failure(NullKey) <==> sheet.cell(row, 1).None?)
      && (r == Failure(CountNotConvertible) <==>
            sheet.cell(row, 1).Some? && CellInt32(sheet.cell(row, 4)).None?)
      && (r.Ok? ==>
            var w, names := r.value, TagNames(CellText(sheet.cell(row, 3)));
            && w.key == sheet.cell(row, 1).value.text
            && w.description == CellText(sheet.cell(row, 2))
            && w.isTranslated
            && Some(w.translationCount) == CellInt32(sheet.cell(row, 4))
            && |w.tags| == |names|
            && (forall k :: 0 <= k < |names| ==> w.tags[k] == Tag(names[k], env.slug(names[k]), 0) && names[k] != "")
            && forall l :: l in w.translations && w.translations[l] == CellText(sheet.cell(row, TranslationColumn(l))))
  {
    forall l: Language ensures l in Languages {
      assert Languages[Position(l)] == l;
    }
    var names := TagNames(CellText(sheet.cell(row, 3)));
    assert forall k :: 0 <= k < |names| ==> names[k] in names;
  }

  /** CreateWordFromRow, with its tag loop. */
  method CreateWordFromRow(env: Env, sheet: Worksheet, row: int) returns (r: Result<Word, RowError>)
    ensures r == RowWord(env, sheet, row)
  {
    var key := sheet.cell(row, 1);
    if key.None? {
      return Failure(NullKey);
    }
    var description := CellText(sheet.cell(row, 2));
    var tags := BuildTags(env.slug, TagNames(CellText(sheet.cell(row, 3))), 0);
    var count := CellInt32(sheet.cell(row, 4));
    if count.None? {
      return Failure(CountNotConvertible);
    }
    var translations := map l: Language | l in Languages :: CellText(sheet.cell(row, TranslationColumn(l)));
    r := Ok(Word(0, key.value.text, description, true, count.value, 0, 0, tags, translations));
  }

  /** The model handed to Create for a row's word, created by the importing user. */
  function RowModel(env: Env, w: Word, userId: int): WordModel
  {
    env.mapEntityToModel(w).(createdBy := userId)
  }

  // ---------------------------------------------------------------------
  // The import loop
  // ---------------------------------------------------------------------

  datatype RowFailure = RowFailure(row: int, error: RowError)

  /** The store and counters after the rows up to a given one, and the row
      whose reading threw, if any. */
  datatype RowsOutcome = RowsOutcome(store: Store, added: nat, skipped: nat, failure: Option<RowFailure>)

  /** One pass of the loop body: read the row, then hand its word to Create
      and count it as added or skipped; `commitOk(row)` is what SaveChanges
      reports for that row's word. */
  function ImportRow(env: Env, o: RowsOutcome, sheet: Worksheet, userId: int,
                     commitOk: int -> bool, row: int): RowsOutcome
  {
    match RowWord(env, sheet, row)
    case Failure(e) => o.(failure := Some(RowFailure(row, e)))
    case Ok(w) =>
      var (r, st') := CreateStep(env, o.store, RowModel(env, w, userId), commitOk(row));
      if r.Some? then RowsOutcome(st', o.added + 1, o.skipped, None)
      else RowsOutcome(st', o.added, o.skipped + 1, None)
  }

  /** One row either throws, leaving store and counters as they were, or
      counts one word as added or skipped; only an added word is appended, and
      the store stays valid with unique keys. */
  lemma ImportRowStep(env: Env, o: RowsOutcome, sheet: Worksheet, userId: int,
                      commitOk: int -> bool, row: int)
    ensures var o' := ImportRow(env, o, sheet, userId, commitOk, row);
      && (o'.failure.Some? ==> o' == o.(failure := Some(RowFailure(row, o'.failure.value.error))))
      && (o'.failure.None? ==> o'.added + o'.skipped == o.added + o.skipped + 1)
      && o.added <= o'.added && |o'.store.words| == |o.store.words| + (o'.added - o.added)
      && o'.store.words[..|o.store.words|] == o.store.words
      && (ValidStore(o.store) ==> ValidStore(o'.store))
      && (UniqueKeys(o.store.words) ==> UniqueKeys(o'.store.words))
      && (o'.failure.None? ==>
            (o'.added == o.added + 1 <==>
               CreateStep(env, o.store, RowModel(env, RowWord(env, sheet, row).value, userId), commitOk(row)).0.Some?))
  {
    match RowWord(env, sheet, row)
    case Failure(e) =>
    case Ok(w) =>
      var model := RowModel(env, w, userId);
      CreateOutcome(env, o.store, model, commitOk(row));
      CreateKeepsStoreValid(env, o.store, model, commitOk(row));
  }

  /** A row whose word's slugged key is already stored is counted as skipped
      and leaves the store as it was. */
  lemma ImportRowStoredKeyIsSkipped(env: Env, o: RowsOutcome, sheet: Worksheet, userId: int,
                                    commitOk: int -> bool, row: int)
    requires RowWord(env, sheet, row).Ok?
    requires exists w <- o.store.words ::
               w.key == env.slug(RowModel(env, RowWord(env, sheet, row).value, userId).key)
    ensures ImportRow(env, o, sheet, userId, commitOk, row) == RowsOutcome(o.store, o.added, o.skipped + 1, None)
  {
    CreateRejects(env, o.store, RowModel(env, RowWord(env, sheet, row).value, userId), commitOk(row));
  }

  /** A row counted as added leaves its word in the store, found by its slugged key. */
  lemma ImportedRowIsRetrievable(env: Env, o: RowsOutcome, sheet: Worksheet, userId: int,
                                 commitOk: int -> bool, row: int)
    requires ImportRow(env, o, sheet, userId, commitOk, row).added == o.added + 1
    ensures RowWord(env, sheet, row).Ok?
    ensures var model := RowModel(env, RowWord(env, sheet, row).value, userId);
      GetByKey(ImportRow(env, o, sheet, userId, commitOk, row).store.words, env.slug(model.key))
        == Some(NewWord(env, model, o.store.nextId))
  {
    var model := RowModel(env, RowWord(env, sheet, row).value, userId);
    CreatedWordIsRetrievable(env, o.store, model, commitOk(row));
  }

  /** Rows 2..last through the loop body in order; a row that throws ends the loop. */
  function ImportRows(env: Env, st: Store, sheet: Worksheet, userId: int,
                      commitOk: int -> bool, last: int): RowsOutcome
    decreases last
  {
    if last < 2 then RowsOutcome(st, 0, 0, None)
    else
      var o := ImportRows(env, st, sheet, userId, commitOk, last - 1);
      if o.failure.Some? then o else ImportRow(env, o, sheet, userId, commitOk, last)
  }

  /** Without a failure every data row up to `last` is counted once; a failure
      lies between row 2 and `last` and every row before it is counted. The
      store only grows, by the added words, and stays valid with unique keys. */
  lemma {:induction false} ImportRowsCounts(env: Env, st: Store, sheet: Worksheet, userId: int,
                                            commitOk: int -> bool, last: int)
    ensures var o := ImportRows(env, st, sheet, userId, commitOk, last);
      && (o.failure.None? ==> o.added + o.skipped == (if last < 2 then 0 else last - 1))
      && (o.failure.Some? ==> 2 <= o.failure.value.row <= last
                              && o.added + o.skipped == o.failure.value.row - 2)
      && |o.store.words| == |st.words| + o.added
      && o.store.words[..|st.words|] == st.words
      && (ValidStore(st) ==> ValidStore(o.store))
      && (UniqueKeys(st.words) ==> UniqueKeys(o.store.words))
    decreases last
  {
    if last >= 2 {
      ImportRowsCounts(env, st, sheet, userId, commitOk, last - 1);
      var o := ImportRows(env, st, sheet, userId, commitOk, last - 1);
      if o.failure.None? {
        ImportRowStep(env, o, sheet, userId, commitOk, last);
        var o' := ImportRow(env, o, sheet, userId, commitOk, last);
        assert o'.store.words[..|st.words|] == o.store.words[..|st.words|];
      }
    }
  }

  /** The outcome of a failed loop is the outcome up to the failing row. */
  lemma {:induction false} FailureIsFinal(env: Env, st: Store, sheet: Worksheet, userId: int,
                                          commitOk: int -> bool, last: int)
    requires ImportRows(env, st, sheet, userId, commitOk, last).failure.Some?
    ensures var o := ImportRows(env, st, sheet, userId, commitOk, last);
      ImportRows(env, st, sheet, userId, commitOk, o.failure.value.row) == o
    decreases last
  {
    if ImportRows(env, st, sheet, userId, commitOk, last - 1).failure.Some? {
      FailureIsFinal(env, st, sheet, userId, commitOk, last - 1);
    }
  }

  /** A row with an empty key cell stops the import at that row or earlier:
      the loop fails, and its outcome is the outcome up to the failing row. */
  lemma {:induction false} NullKeyStopsImport(env: Env, st: Store, sheet: Worksheet, userId: int,
                                              commitOk: int -> bool, row: int, last: int)
    requires 2 <= row <= last
    requires sheet.cell(row, 1).None?
    ensures var o := ImportRows(env, st, sheet, userId, commitOk, last);
      && o.failure.Some? && o.failure.value.row <= row
      && ImportRows(env, st, sheet, userId, commitOk, o.failure.value.row) == o
    decreases last
  {
    if last > row {
      NullKeyStopsImport(env, st, sheet, userId, commitOk, row, last - 1);
    } else {
      ImportRowsCounts(env, st, sheet, userId, commitOk, last - 1);
    }
    FailureIsFinal(env, st, sheet, userId, commitOk, last);
  }

  /** Once the loop has failed at a row, going further changes nothing. */
  lemma {:induction false} LaterRowsKeepFailure(env: Env, st: Store, sheet: Worksheet, userId: int,
                                                commitOk: int -> bool, row: int, last: int)
    requires row <= last
    requires ImportRows(env, st, sheet, userId, commitOk, row).failure.Some?
    ensures ImportRows(env, st, sheet, userId, commitOk, last) == ImportRows(env, st, sheet, userId, commitOk, row)
    decreases last
  {
    if last > row {
      LaterRowsKeepFailure(env, st, sheet, userId, commitOk, row, last - 1);
      var o := ImportRows(env, st, sheet, userId, commitOk, last - 1);
      assert o.failure.Some?;
      assert last >= 2;
      assert ImportRows(env, st, sheet, userId, commitOk, last) == o;
    }
  }

  // ---------------------------------------------------------------------
  // Import
  // ---------------------------------------------------------------------

  const WrongFormatMessage := "File format is incorrect, *.xlsx file expected"
  const NoWorksheetsMessage := "No Worksheets in selected file"

  /** What the import shows: a message, or the exception a row threw. */
  datatype ImportResult = Shown(message: string) | Failed(failure: RowFailure)

  /** The closing message: the number of added words, then the number of
      skipped words when there were any. */
  function SummaryMessage(added: nat, skipped: nat): string
  {
    "Added new words: " + NatToString(added) + "." + SkippedNote(skipped)
  }

  /** The part of the summary after the added count's '.': the skipped count,
      appended only when some words were skipped. */
  function SkippedNote(skipped: nat): string
  {
    if skipped > 0 then " Words skipped: " + NatToString(skipped) + "." else ""
  }

  lemma SummaryMessageShape(added: nat, skipped: nat)
    ensures SummaryMessage(added, skipped)
         == "Added new words: " + (NatToString(added) + "." + SkippedNote(skipped))
  {
    var d := NatToString(added);
    assert "Added new words: " + d + "." + SkippedNote(skipped)
        == "Added new words: " + (d + "." + SkippedNote(skipped));
  }

  lemma SkippedNoteInjective(s1: nat, s2: nat)
    requires SkippedNote(s1) == SkippedNote(s2)
    ensures s1 == s2
  {
    var t1, t2 := SkippedNote(s1), SkippedNote(s2);
    assert s1 > 0 <==> |t1| > 0;
    assert s2 > 0 <==> |t2| > 0;
    if s1 > 0 {
      assert t1[16..|t1| - 1] == NatToString(s1);
      assert t2[16..|t2| - 1] == NatToString(s2);
      NatToStringInjective(s1, s2);
    }
  }

  /** The message tells both counts: different counts never give the same message. */
  lemma SummaryMessageDeterminesCounts(a1: nat, s1: nat, a2: nat, s2: nat)
    requires SummaryMessage(a1, s1) == SummaryMessage(a2, s2)
    ensures a1 == a2 && s1 == s2
  {
    var prefix := "Added new words: ";
    var t1, t2 := SkippedNote(s1), SkippedNote(s2);
    var d1, d2 := NatToString(a1), NatToString(a2);
    SummaryMessageShape(a1, s1);
    SummaryMessageShape(a2, s2);
    assert d1 + "." + t1 == SummaryMessage(a1, s1)[|prefix|..];
    assert d2 + "." + t2 == SummaryMessage(a2, s2)[|prefix|..];
    DigitsBeforeDot(d1, t1, d2, t2);
    NatToStringInjective(a1, a2);
    SkippedNoteInjective(s1, s2);
  }

  /** The POST import, as a function of the committed store: the extension
      check, the worksheet check on the first worksheet, the header check,
      then the row loop and its summary. */
  function ImportSpec(env: Env, st: Store, fileName: string, workbook: seq<Worksheet>,
                      userId: int, commitOk: int -> bool): (ImportResult, Store)
  {
    if Extension(fileName) != ".xlsx" then (Shown(WrongFormatMessage), st)
    else if |workbook| == 0 then (Shown(NoWorksheetsMessage), st)
    else
      var sheet := workbook[0];
      match CheckExcelFileColumns(env, sheet)
      case HeaderRejected(message) => (Shown(message), st)
      case HeaderOk =>
        var o := ImportRows(env, st, sheet, userId, commitOk, sheet.endRow);
        if o.failure.Some? then (Failed(o.failure.value), o.store)
        else (Shown(SummaryMessage(o.added, o.skipped)), o.store)
  }

  /** A file whose name does not end in ".xlsx" is refused and nothing is stored. */
  lemma ImportRejectsOtherFormats(env: Env, st: Store, fileName: string, workbook: seq<Worksheet>,
                                  userId: int, commitOk: int -> bool)
    requires !EndsWith(fileName, ".xlsx")
    ensures ImportSpec(env, st, fileName, workbook, userId, commitOk) == (Shown(WrongFormatMessage), st)
  {
    ExtensionIffEndsWith(fileName, ".xlsx");
  }

  /** A workbook without worksheets is refused and nothing is stored. */
  lemma ImportRejectsEmptyWorkbook(env: Env, st: Store, fileName: string,
                                   userId: int, commitOk: int -> bool)
    requires EndsWith(fileName, ".xlsx")
    ensures ImportSpec(env, st, fileName, [], userId, commitOk) == (Shown(NoWorksheetsMessage), st)
  {
    ExtensionIffEndsWith(fileName, ".xlsx");
  }

  /** A first worksheet whose header does not match stores nothing, and the
      message names the first column whose header cell lacks its label. */
  lemma ImportRejectsBadHeader(env: Env, st: Store, fileName: string, workbook: seq<Worksheet>,
                               userId: int, commitOk: int -> bool, column: int)
    requires EndsWith(fileName, ".xlsx") && |workbook| > 0
    requires 1 <= column <= 15 && !HeaderCellMatches(env, workbook[0], column)
    requires forall d :: 1 <= d < column ==> HeaderCellMatches(env, workbook[0], d)
    ensures ImportSpec(env, st, fileName, workbook, userId, commitOk)
         == (Shown(env.argumentMessage("Column unrecognized.", HeaderKeys[column - 1])), st)
  {
    ExtensionIffEndsWith(fileName, ".xlsx");
    HeaderRejectionNamesFirstMismatch(env, workbook[0], 1, column);
  }

  /** A completed import reports exactly the words it added and skipped,
      one per data row, and appends exactly the added words. */
  lemma ImportSummaryCounts(env: Env, st: Store, fileName: string, workbook: seq<Worksheet>,
                            userId: int, commitOk: int -> bool, added: nat, skipped: nat)
    requires EndsWith(fileName, ".xlsx") && |workbook| > 0
    requires CheckExcelFileColumns(env, workbook[0]).HeaderOk?
    ensures var (result, st') := ImportSpec(env, st, fileName, workbook, userId, commitOk);
      result == Shown(SummaryMessage(added, skipped)) ==>
        && added + skipped == (if workbook[0].endRow < 2 then 0 else workbook[0].endRow - 1)
        && |st'.words| == |st.words| + added
        && st'.words[..|st.words|] == st.words
  {
    var sheet := workbook[0];
    var o := ImportRows(env, st, sheet, userId, commitOk, sheet.endRow);
    ExtensionIffEndsWith(fileName, ".xlsx");
    if ImportSpec(env, st, fileName, workbook, userId, commitOk).0 == Shown(SummaryMessage(added, skipped)) {
      assert o.failure.None?;
      assert ImportSpec(env, st, fileName, workbook, userId, commitOk)
          == (Shown(SummaryMessage(o.added, o.skipped)), o.store);
      SummaryMessageDeterminesCounts(o.added, o.skipped, added, skipped);
      ImportRowsCounts(env, st, sheet, userId, commitOk, sheet.endRow);
    }
  }

  /** The row loop of Import, from row 2 to the last used row, stopping at a
      row that throws. */
  method ImportLoop(svc: WordService, sheet: Worksheet, userId: int, commitOk: int -> bool)
    returns (added: nat, skipped: nat, failure: Option<RowFailure>)
    requires svc.Valid()
    modifies svc
    ensures svc.Valid()
    ensures RowsOutcome(svc.State(), added, skipped, failure)
         == ImportRows(svc.env, old(svc.State()), sheet, userId, commitOk, sheet.endRow)
  {
    ghost var st := svc.State();
    added, skipped := 0, 0;
    var rowNum := 2;
    while rowNum <= sheet.endRow
      invariant 2 <= rowNum && (rowNum <= sheet.endRow + 1 || rowNum == 2)
      invariant svc.Valid()
      invariant ImportRows(svc.env, st, sheet, userId, commitOk, rowNum - 1)
                == RowsOutcome(svc.State(), added, skipped, None)
      decreases sheet.endRow - rowNum
    {
      ghost var before := RowsOutcome(svc.State(), added, skipped, None);
      ghost var after := ImportRow(svc.env, before, sheet, userId, commitOk, rowNum);
      assert ImportRows(svc.env, st, sheet, userId, commitOk, rowNum) == after;
      var word := CreateWordFromRow(svc.env, sheet, rowNum);
      if word.Failure? {
        LaterRowsKeepFailure(svc.env, st, sheet, userId, commitOk, rowNum, sheet.endRow);
        return added, skipped, Some(RowFailure(rowNum, word.error));
      }
      rowNum := rowNum + 1;
      var model := RowModel(svc.env, word.value, userId);
      var addedWord := svc.Create(model, commitOk(rowNum - 1));
      if addedWord.None? {
        skipped := skipped + 1;
      } else {
        added := added + 1;
      }
      assert RowsOutcome(svc.State(), added, skipped, None) == after;
    }
    assert ImportRows(svc.env, st, sheet, userId, commitOk, rowNum - 1)
        == ImportRows(svc.env, st, sheet, userId, commitOk, sheet.endRow);
    failure := None;
  }

  /** Import: the POST action, updating the word service in place. */
  method Import(svc: WordService, fileName: string, workbook: seq<Worksheet>,
                userId: int, commitOk: int -> bool) returns (result: ImportResult)
    requires svc.Valid()
    modifies svc
    ensures svc.Valid()
    ensures (result, svc.State()) == ImportSpec(svc.env, old(svc.State()), fileName, workbook, userId, commitOk)
  {
    if Extension(fileName) != ".xlsx" {
      return Shown(WrongFormatMessage);
    }
    if |workbook| == 0 {
      return Shown(NoWorksheetsMessage);
    }
    var sheet := workbook[0];
    var header := CheckExcelFileColumns(svc.env, sheet);
    if header.HeaderRejected? {
      return Shown(header.message);
    }
    var added, skipped, failure := ImportLoop(svc, sheet, userId, commitOk);
    if failure.Some? {
      return Failed(failure.value);
    }
    result := Shown(SummaryMessage(added, skipped));
  }

  // ---------------------------------------------------------------------
  // Listings
  // ---------------------------------------------------------------------

  /** The user query the Users action makes: by role when the id is a valid
      role, all users otherwise, for a page clamped to at least 1. */
  datatype UserQuery = UsersInRole(roleId: int, page: int) | AllUsers(page: int)

  function UsersQuery(env: Env, id: int, page: int): (q: UserQuery)
    ensures q.page >= 1 && (page >= 1 ==> q.page == page) && (page < 1 ==> q.page == 1)
    ensures q.UsersInRole? <==> env.isValidRole(id)
    ensures q.UsersInRole? ==> q.roleId == id
  {
    var pageNumber := ClampPage(page);
    if env.isValidRole(id) then UsersInRole(id, pageNumber) else AllUsers(pageNumber)
  }

  /** The page the Apps action asks for: its id, clamped to at least 1. */
  function AppsPage(id: int): (page: int)
    ensures page >= 1 && (id >= 1 ==> page == id) && (id < 1 ==> page == 1)
  {
    ClampPage(id)
  }
}

=== FILE: entities.dfy ===
/** The entities the word core works on (Word, Tag, the WordModel handed to
    word creation) and the collaborators whose code is not part of this model,
    gathered in one immutable configuration record. */
module Entities {
  import opened Wrappers

  type PosNat = n: int | n > 0 witness 1

  /** The eleven languages that have a Translation_XX field on a word. */
  datatype Language = TR | EN | AZ | CN | FR | GR | IT | KZ | RU | SP | TK

  /** The fixed order used by the if/else chain of word creation and by the
      translation columns of an import sheet. */
  const Languages: seq<Language> := [TR, EN, AZ, CN, FR, GR, IT, KZ, RU, SP, TK]

  function Position(l: Language): (i: nat)
    ensures i < |Languages| && Languages[i] == l
    ensures l in Languages
  {
    match l
    case TR => 0 case EN => 1 case AZ => 2 case CN => 3 case FR => 4 case GR => 5
    case IT => 6 case KZ => 7 case RU => 8 case SP => 9 case TK => 10
  }

  /** The suffix of the word property that holds the translation: Translation_TR, ... */
  function Code(l: Language): string
  {
    match l
    case TR => "TR" case EN => "EN" case AZ => "AZ" case CN => "CN" case FR => "FR"
    case GR => "GR" case IT => "IT" case KZ => "KZ" case RU => "RU" case SP => "SP"
    case TK => "TK"
  }

  /** The first language, in the fixed order, whose key is `k`: the shape of an
      if/else chain that compares `k` with each language's key in turn. */
  function Lookup(keyOf: Language -> string, k: string): (r: Option<Language>)
    ensures r.Some? ==> keyOf(r.value) == k
    ensures r.Some? ==> forall l :: Position(l) < Position(r.value) ==> keyOf(l) != k
    ensures r.None? <==> forall l :: keyOf(l) != k
  {
    if keyOf(TR) == k then Some(TR)
    else if keyOf(EN) == k then Some(EN)
    else if keyOf(AZ) == k then Some(AZ)
    else if keyOf(CN) == k then Some(CN)
    else if keyOf(FR) == k then Some(FR)
    else if keyOf(GR) == k then Some(GR)
    else if keyOf(IT) == k then Some(IT)
    else if keyOf(KZ) == k then Some(KZ)
    else if keyOf(RU) == k then Some(RU)
    else if keyOf(SP) == k then Some(SP)
    else if keyOf(TK) == k then Some(TK)
    else
      assert forall l :: keyOf(l) != k by {
        forall l ensures keyOf(l) != k {
          assert Languages[Position(l)] == l;
        }
      }
      None
  }

  /** Property lookup by name finds each language's own field. */
  lemma LookupCode(l: Language)
    ensures Lookup(Code, Code(l)) == Some(l)
  {
  }

  const Int32Min: int := -0x8000_0000
  const Int32Max: int := 0x7FFF_FFFF

  /** The C# `++` on an Int32 in an unchecked context: one more, except that
      the largest Int32 wraps around to the smallest. */
  function Int32Increment(n: int): (r: int)
    ensures Int32Min <= r <= Int32Max
    ensures Int32Min <= n < Int32Max ==> r == n + 1
    ensures n == Int32Max ==> r == Int32Min
  {
    (n + 1 - Int32Min) % 0x1_0000_0000 + Int32Min
  }

  datatype Tag = Tag(name: string, urlName: string, createdBy: int)

  /** A stored word. A translation field that is null is a language absent
      from `translations`. */
  datatype Word = Word(
    id: int,
    key: string,
    description: string,
    isTranslated: bool,
    translationCount: int,                   // Int32
    createdBy: int,
    updatedBy: int,
    tags: seq<Tag>,
    translations: map<Language, string>)

  /** One entry of WordModel.Translations: the entry's Language.Key and Value. */
  datatype TranslationEntry = TranslationEntry(languageKey: string, value: string)

  /** The candidate handed to word creation; a null Description is None. */
  datatype WordModel = WordModel(
    key: string,
    description: Option<string>,
    tag: string,
    isTranslated: bool,
    translations: seq<TranslationEntry>,
    createdBy: int)

  /** Collaborators whose code is not part of this model, and the page size. */
  datatype Env = Env(
    pageSize: PosNat,                        // ConstHelper.PageSize
    slug: string -> string,                  // ToUrlSlug
    languageKey: Language -> string,         // LanguageModel.XX().Key
    isValidForNew: WordModel -> bool,        // WordModel.IsValidForNew
    toUpperInvariant: string -> string,      // String.ToUpperInvariant
    localize: string -> string,              // HtmlHelper.LocalizationString
    argumentMessage: (string, string) -> string, // ArgumentException(message, paramName).Message
    mapEntityToModel: Word -> WordModel,     // WordModel.MapEntityToModel
    isValidRole: int -> bool)                // SetLocaleRole.IsValid

  /** One tag per name, each with its slug as URL name. */
  function MakeTags(slug: string -> string, names: seq<string>, createdBy: int): seq<Tag>
  {
    seq(|names|, k requires 0 <= k < |names| => Tag(names[k], slug(names[k]), createdBy))
  }
}

=== FILE: paging.dfy ===
/** The paging rule the word queries share: clamp the requested page, count
    the pages, reset an out-of-range page, order by Id descending, then
    skip and take. */
module Paging {
  import opened Entities

  /** The arguments of the PagedList constructor; its derived flags are not modelled. */
  datatype PagedList = PagedList(number: int, pageSize: int, totalCount: int, items: seq<Word>)

  /** A requested page below 1 becomes page 1. */
  function ClampPage(page: int): (r: int)
    ensures r >= 1
    ensures page >= 1 ==> r == page
    ensures page < 1 ==> r == 1
  {
    if page < 1 then 1 else page
  }

  /** Math.Ceiling(total / (double)size): the fewest pages of `size` that hold `total` items. */
  function PageCount(total: int, size: PosNat): nat
    decreases total
  {
    if total <= 0 then 0 else PageCount(total - size, size) + 1
  }

  /** PageCount is the ceiling of total / size: its pages hold every item,
      and one page fewer would not. */
  lemma {:induction false} PageCountIsCeiling(total: int, size: PosNat)
    ensures ItemsBefore(size, PageCount(total, size)) >= total
    ensures PageCount(total, size) == 0 || ItemsBefore(size, PageCount(total, size) - 1) < total
    decreases total
  {
    if total > 0 {
      PageCountIsCeiling(total - size, size);
    }
  }

  predicate IdsNonIncreasing(s: seq<Word>)
  {
    forall i, j :: 0 <= i < j < |s| ==> s[i].id >= s[j].id
  }

  predicate IdsDecreasing(s: seq<Word>)
  {
    forall i, j :: 0 <= i < j < |s| ==> s[i].id > s[j].id
  }

  predicate UniqueIds(s: seq<Word>)
  {
    forall i, j :: 0 <= i < j < |s| ==> s[i].id != s[j].id
  }

  /** The words that satisfy `p`, in store order (LINQ Where). */
  function Where(s: seq<Word>, p: Word -> bool): (r: seq<Word>)
    ensures |r| <= |s|
    ensures forall w <- r :: w in s && p(w)
    ensures forall w <- s :: p(w) ==> w in r
    decreases |s|
  {
    if |s| == 0 then []
    else
      var rest := Where(s[1..], p);
      assert forall w <- rest :: w in s[1..];
      if p(s[0]) then [s[0]] + rest else rest
  }

  /** Filtering works piece by piece, so it keeps the order of the words and
      how often each occurs. */
  lemma {:induction false} WhereAppend(a: seq<Word>, b: seq<Word>, p: Word -> bool)
    ensures Where(a + b, p) == Where(a, p) + Where(b, p)
    decreases |a|
  {
    if |a| > 0 {
      assert (a + b)[0] == a[0] && (a + b)[1..] == a[1..] + b;
      WhereAppend(a[1..], b, p);
    } else {
      assert a + b == b;
    }
  }

  /** A single word is kept exactly when it satisfies the filter. */
  lemma WhereSingle(w: Word, p: Word -> bool)
    ensures Where([w], p) == if p(w) then [w] else []
  {
    assert [w][1..] == [];
  }

  /** Filtering keeps Ids distinct. */
  lemma {:induction false} WhereKeepsUniqueIds(s: seq<Word>, p: Word -> bool)
    ensures UniqueIds(s) ==> UniqueIds(Where(s, p))
    decreases |s|
  {
    if |s| > 0 && UniqueIds(s) {
      var tail := s[1..];
      assert UniqueIds(tail) by {
        forall i, j | 0 <= i < j < |tail| ensures tail[i].id != tail[j].id {
          assert tail[i] == s[i + 1] && tail[j] == s[j + 1];
        }
      }
      WhereKeepsUniqueIds(tail, p);
      if p(s[0]) {
        var rest := Where(tail, p);
        forall x <- rest ensures x.id != s[0].id {
          var j :| 0 <= j < |tail| && tail[j] == x;
          assert s[j + 1] == x;
        }
        var r := [s[0]] + rest;
        forall i, j | 0 <= i < j < |r| ensures r[i].id != r[j].id {
          assert r[j] == rest[j - 1] && r[j] in rest;
          if i > 0 {
            assert r[i] == rest[i - 1];
          }
        }
      }
    }
  }

  /** `w` placed before the first element whose Id is not larger. */
  function InsertById(w: Word, s: seq<Word>): (r: seq<Word>)
    ensures multiset(r) == multiset{w} + multiset(s)
    decreases |s|
  {
    if |s| == 0 || s[0].id <= w.id then [w] + s
    else
      assert s == [s[0]] + s[1..];
      [s[0]] + InsertById(w, s[1..])
  }

  /** Each element of the inserted-into sequence is `w` or came from `s`. */
  lemma InsertedFrom(w: Word, s: seq<Word>, x: Word)
    requires x in InsertById(w, s)
    ensures x == w || x in s
  {
    assert x in multiset(InsertById(w, s));
  }

  lemma {:induction false} InsertByIdSorted(w: Word, s: seq<Word>)
    requires IdsNonIncreasing(s)
    ensures IdsNonIncreasing(InsertById(w, s))
    decreases |s|
  {
    if |s| > 0 && s[0].id > w.id {
      var rest := InsertById(w, s[1..]);
      InsertByIdSorted(w, s[1..]);
      forall x <- rest ensures x.id <= s[0].id {
        InsertedFrom(w, s[1..], x);
      }
      var r := [s[0]] + rest;
      forall i, j | 0 <= i < j < |r| ensures r[i].id >= r[j].id {
        if i == 0 { assert r[j] == rest[j - 1]; }
      }
    }
  }

  lemma {:induction false} InsertByIdStrict(w: Word, s: seq<Word>)
    requires IdsDecreasing(s)
    requires forall x <- s :: x.id != w.id
    ensures IdsDecreasing(InsertById(w, s))
    decreases |s|
  {
    if |s| > 0 && s[0].id > w.id {
      var rest := InsertById(w, s[1..]);
      InsertByIdStrict(w, s[1..]);
      forall x <- rest ensures x.id < s[0].id {
        InsertedFrom(w, s[1..], x);
      }
      var r := [s[0]] + rest;
      forall i, j | 0 <= i < j < |r| ensures r[i].id > r[j].id {
        if i == 0 { assert r[j] == rest[j - 1]; }
      }
    }
  }

  /** OrderByDescending(x => x.Id), as an insertion sort: a permutation of
      the input in which no Id is followed by a larger one. */
  function SortByIdDesc(s: seq<Word>): (r: seq<Word>)
    ensures multiset(r) == multiset(s)
    ensures IdsNonIncreasing(r)
    decreases |s|
  {
    if |s| == 0 then []
    else
      assert s == [s[0]] + s[1..];
      var rest := SortByIdDesc(s[1..]);
      InsertByIdSorted(s[0], rest);
      InsertById(s[0], rest)
  }

  /** With unique Ids the order is strictly descending. */
  lemma {:induction false} SortByIdDescStrict(s: seq<Word>)
    requires UniqueIds(s)
    ensures IdsDecreasing(SortByIdDesc(s))
    decreases |s|
  {
    if |s| > 0 {
      var rest := SortByIdDesc(s[1..]);
      SortByIdDescStrict(s[1..]);
      forall x <- rest ensures x.id != s[0].id {
        assert x in multiset(s[1..]);
        var j :| 0 <= j < |s[1..]| && s[1..][j] == x;
        assert s[j + 1] == x;
      }
      InsertByIdStrict(s[0], rest);
    }
  }

  /** Skip(skip).Take(take). */
  function Window(s: seq<Word>, skip: int, take: int): (r: seq<Word>)
    requires skip >= 0 && take >= 0
    ensures |r| == if skip >= |s| then 0 else if skip + take <= |s| then take else |s| - skip
    ensures forall k :: 0 <= k < |r| ==> r[k] == s[skip + k]
  {
    var from := if skip < |s| then skip else |s|;
    var to := if skip + take < |s| then skip + take else |s|;
    s[from..to]
  }

  /** PageSize * pages: the number of items that `pages` full pages hold. */
  function ItemsBefore(size: PosNat, pages: nat): nat
  {
    if pages == 0 then 0 else ItemsBefore(size, pages - 1) + size
  }

  /** The paging of GetByUserId and GetNotTranslated over the matching words. */
  function OneBasedPage(size: PosNat, matching: seq<Word>, pageNumber: int): PagedList
  {
    PageAt(size, matching, OneBasedNumber(size, |matching|, pageNumber))
  }

  /** The page number after clamping and the reset of an out-of-range page. */
  function OneBasedNumber(size: PosNat, total: nat, pageNumber: int): (number: int)
    ensures number >= 1
  {
    var page := ClampPage(pageNumber);
    if page > PageCount(total, size) then 1 else page
  }

  /** Page `number` (1-based) of the matching words, newest first. */
  function PageAt(size: PosNat, matching: seq<Word>, number: int): PagedList
    requires number >= 1
  {
    PagedList(number, size, |matching|, Window(SortByIdDesc(matching), ItemsBefore(size, number - 1), size))
  }

  /** What a page of OneBasedPage holds: at most `size` of the matching words,
      newest first, under a page number that is in range or 1. */
  lemma OneBasedPageShape(size: PosNat, matching: seq<Word>, pageNumber: int)
    ensures var r := OneBasedPage(size, matching, pageNumber);
      && r.pageSize == size && r.totalCount == |matching|
      && 1 <= r.number && (r.number == 1 || r.number <= PageCount(|matching|, size))
      && |r.items| <= size
      && (forall w <- r.items :: w in matching)
      && IdsNonIncreasing(r.items)
      && (UniqueIds(matching) ==> IdsDecreasing(r.items))
  {
    var r := OneBasedPage(size, matching, pageNumber);
    WindowShape(size, matching, ItemsBefore(size, r.number - 1));
  }

  /** Which page OneBasedPage serves: the requested page when it is in range,
      page 1 otherwise, holding the window of the Id-sorted words after the
      pages before it. */
  lemma OneBasedPageContents(size: PosNat, matching: seq<Word>, pageNumber: int)
    ensures var r := OneBasedPage(size, matching, pageNumber);
      && r.number == (if 1 <= pageNumber <= PageCount(|matching|, size) then pageNumber else 1)
      && r == PageAt(size, matching, r.number)
      && r.items == Window(SortByIdDesc(matching), ItemsBefore(size, r.number - 1), size)
  {
  }

  /** A window of the Id-sorted words keeps their order and comes from them. */
  lemma WindowShape(size: PosNat, matching: seq<Word>, skip: nat)
    ensures var items := Window(SortByIdDesc(matching), skip, size);
      && |items| <= size
      && (forall w <- items :: w in matching)
      && IdsNonIncreasing(items)
      && (UniqueIds(matching) ==> IdsDecreasing(items))
  {
    var sorted := SortByIdDesc(matching);
    var items := Window(sorted, skip, size);
    forall w <- items ensures w in matching {
      assert w in multiset(sorted);
    }
    forall a, b | 0 <= a < b < |items| ensures items[a].id >= items[b].id {
      assert items[a] == sorted[skip + a] && items[b] == sorted[skip + b];
    }
    if UniqueIds(matching) {
      SortByIdDescStrict(matching);
      forall a, b | 0 <= a < b < |items| ensures items[a].id > items[b].id {
        assert items[a] == sorted[skip + a] && items[b] == sorted[skip + b];
      }
    }
  }

  /** A page below 1 or past the last page gives the same result as page 1. */
  lemma OutOfRangePageIsFirstPage(size: PosNat, matching: seq<Word>, pageNumber: int)
    requires pageNumber < 1 || pageNumber > PageCount(|matching|, size)
    ensures OneBasedPage(size, matching, pageNumber) == OneBasedPage(size, matching, 1)
  {
    assert OneBasedNumber(size, |matching|, pageNumber) == 1 == OneBasedNumber(size, |matching|, 1);
  }

  /** An in-range page is the window that starts after the pages before it. */
  lemma InRangePage(size: PosNat, matching: seq<Word>, n: int)
    requires 1 <= n <= PageCount(|matching|, size)
    ensures OneBasedPage(size, matching, n) == PageAt(size, matching, n)
  {
    assert OneBasedNumber(size, |matching|, n) == n;
  }

  /** A window that ends before another starts holds no smaller Id. */
  lemma WindowsInOrder(sorted: seq<Word>, skipP: nat, skipQ: nat, size: PosNat, strict: bool)
    requires skipP + size <= skipQ
    requires if strict then IdsDecreasing(sorted) else IdsNonIncreasing(sorted)
    ensures var p, q := Window(sorted, skipP, size), Window(sorted, skipQ, size);
      forall a, b :: 0 <= a < |p| && 0 <= b < |q| ==> p[a].id >= q[b].id && (strict ==> p[a].id > q[b].id)
  {
    var p, q := Window(sorted, skipP, size), Window(sorted, skipQ, size);
    forall a, b | 0 <= a < |p| && 0 <= b < |q|
      ensures p[a].id >= q[b].id && (strict ==> p[a].id > q[b].id)
    {
      assert p[a] == sorted[skipP + a];
      assert q[b] == sorted[skipQ + b];
    }
  }

  /** Every word on page k is at least as recent (by Id) as every word on page
      k + 1, and strictly more recent when Ids are unique. */
  lemma EarlierPageIsNewer(size: PosNat, matching: seq<Word>, k: int)
    requires 1 <= k < PageCount(|matching|, size)
    ensures var p, q := OneBasedPage(size, matching, k).items, OneBasedPage(size, matching, k + 1).items;
      forall a, b :: 0 <= a < |p| && 0 <= b < |q| ==>
        p[a].id >= q[b].id && (UniqueIds(matching) ==> p[a].id > q[b].id)
  {
    var sorted := SortByIdDesc(matching);
    InRangePage(size, matching, k);
    InRangePage(size, matching, k + 1);
    assert ItemsBefore(size, k) == ItemsBefore(size, k - 1) + size;
    if UniqueIds(matching) {
      SortByIdDescStrict(matching);
      WindowsInOrder(sorted, ItemsBefore(size, k - 1), ItemsBefore(size, k), size, true);
    } else {
      WindowsInOrder(sorted, ItemsBefore(size, k - 1), ItemsBefore(size, k), size, false);
    }
  }
}

=== FILE: text.dfy ===
/** String helpers the core relies on: String.Split on one separator character
    (with and without StringSplitOptions.RemoveEmptyEntries) and the decimal
    rendering of a count that String.Format uses for "{0}". */
module Text {

  /** The pieces of `s` between occurrences of `sep`, empty pieces included
      (String.Split with no options). */
  function SplitAll(s: string, sep: char): (r: seq<string>)
    ensures |r| >= 1
    ensures forall p <- r :: sep !in p
    decreases |s|
  {
    if |s| == 0 then [""]
    else
      var rest := SplitAll(s[1..], sep);
      if s[0] == sep then [""] + rest else [[s[0]] + rest[0]] + rest[1..]
  }

  /** The pieces glued back together with `sep` between them (String.Join). */
  function Join(parts: seq<string>, sep: char): string
  {
    if |parts| == 0 then ""
    else if |parts| == 1 then parts[0]
    else parts[0] + [sep] + Join(parts[1..], sep)
  }

  /** Splitting loses nothing: joining the pieces gives back the input. */
  lemma {:induction false} JoinSplitAll(s: string, sep: char)
    ensures Join(SplitAll(s, sep), sep) == s
    decreases |s|
  {
    if |s| > 0 {
      var rest := SplitAll(s[1..], sep);
      JoinSplitAll(s[1..], sep);
      assert s == [s[0]] + s[1..];
      if s[0] == sep {
        assert ([""] + rest)[1..] == rest;
      } else {
        var parts := [[s[0]] + rest[0]] + rest[1..];
        if |rest| > 1 {
          assert parts[1..] == rest[1..];
        }
      }
    }
  }

  /** A separator-free prefix lands in the first piece. */
  lemma {:induction false} SplitAllPrefix(p: string, t: string, sep: char)
    requires sep !in p
    ensures SplitAll(p + t, sep) == [p + SplitAll(t, sep)[0]] + SplitAll(t, sep)[1..]
    decreases |p|
  {
    var x := SplitAll(t, sep);
    if |p| == 0 {
      assert p + t == t;
      assert p + x[0] == x[0];
      assert [p + x[0]] + x[1..] == x;
    } else {
      SplitAllPrefix(p[1..], t, sep);
      assert p + t == [p[0]] + (p[1..] + t);
      assert (p + t)[1..] == p[1..] + t;
      assert [p[0]] + (p[1..] + x[0]) == p + x[0];
    }
  }

  /** Joining separator-free pieces and splitting again gives back the pieces,
      so SplitAll and Join are inverse to each other. */
  lemma {:induction false} SplitAllJoin(parts: seq<string>, sep: char)
    requires |parts| >= 1
    requires forall p <- parts :: sep !in p
    ensures SplitAll(Join(parts, sep), sep) == parts
    decreases |parts|
  {
    if |parts| == 1 {
      SplitAllPrefix(parts[0], "", sep);
      assert parts[0] + "" == parts[0];
    } else {
      var tail := Join(parts[1..], sep);
      SplitAllJoin(parts[1..], sep);
      assert Join(parts, sep) == parts[0] + ([sep] + tail);
      SplitAllPrefix(parts[0], [sep] + tail, sep);
      assert ([sep] + tail)[1..] == tail;
      var pieces := SplitAll([sep] + tail, sep);
      assert pieces == [""] + parts[1..];
      assert pieces[0] == "" && pieces[1..] == parts[1..];
      assert parts[0] + "" == parts[0];
      assert parts == [parts[0]] + parts[1..];
    }
  }

  /** The pieces that are not empty, in order. */
  function RemoveEmpty(parts: seq<string>): (r: seq<string>)
    ensures |r| <= |parts|
    ensures forall p <- r :: p != "" && p in parts
    ensures forall p <- parts :: p != "" ==> p in r
    decreases |parts|
  {
    if |parts| == 0 then []
    else (if parts[0] == "" then [] else [parts[0]]) + RemoveEmpty(parts[1..])
  }

  /** String.Split(new[] { sep }, StringSplitOptions.RemoveEmptyEntries). */
  function SplitRemoveEmpty(s: string, sep: char): (r: seq<string>)
    ensures forall p <- r :: p != "" && sep !in p
    ensures forall p <- SplitAll(s, sep) :: p != "" ==> p in r
    ensures forall p <- r :: p in SplitAll(s, sep)
  {
    RemoveEmpty(SplitAll(s, sep))
  }

  /** Dropping empty pieces works piece by piece: it keeps the order of the
      pieces and each piece's number of occurrences. */
  lemma {:induction false} RemoveEmptyAppend(a: seq<string>, b: seq<string>)
    ensures RemoveEmpty(a + b) == RemoveEmpty(a) + RemoveEmpty(b)
    decreases |a|
  {
    if |a| > 0 {
      assert (a + b)[0] == a[0] && (a + b)[1..] == a[1..] + b;
      RemoveEmptyAppend(a[1..], b);
    } else {
      assert a + b == b;
    }
  }

  /** A single piece is kept exactly when it is not empty. */
  lemma RemoveEmptySingle(p: string)
    ensures RemoveEmpty([p]) == if p == "" then [] else [p]
  {
    assert [p][1..] == [];
  }

  /** Pieces that are all non-empty are kept as they are. */
  lemma {:induction false} RemoveEmptyKeepsNonEmpty(parts: seq<string>)
    requires forall p <- parts :: p != ""
    ensures RemoveEmpty(parts) == parts
    decreases |parts|
  {
    if |parts| > 0 {
      assert forall p <- parts[1..] :: p in parts;
      RemoveEmptyKeepsNonEmpty(parts[1..]);
      assert parts[0] in parts;
      assert parts == [parts[0]] + parts[1..];
    }
  }

  /** Splitting a comma list of non-empty, separator-free tokens with empty
      entries removed gives back exactly those tokens, in order. */
  lemma SplitRemoveEmptyJoin(tokens: seq<string>, sep: char)
    requires forall p <- tokens :: p != "" && sep !in p
    ensures SplitRemoveEmpty(Join(tokens, sep), sep) == tokens
  {
    if |tokens| == 0 {
      assert SplitAll("", sep) == [""];
    } else {
      SplitAllJoin(tokens, sep);
      RemoveEmptyKeepsNonEmpty(tokens);
    }
  }

  /** ASCII text with 'A'..'Z' turned into 'a'..'z'. The program itself lowers
      nothing; this only relates the header's literal resource keys to the
      upper-case language codes. */
  function ToLowerAscii(s: string): (r: string)
    ensures |r| == |s|
    ensures forall i :: 0 <= i < |s| ==> r[i] == if 'A' <= s[i] <= 'Z' then (s[i] - 'A' + 'a') else s[i]
  {
    seq(|s|, i requires 0 <= i < |s| => if 'A' <= s[i] <= 'Z' then s[i] - 'A' + 'a' else s[i])
  }

  predicate IsDigits(s: string)
  {
    forall i :: 0 <= i < |s| ==> '0' <= s[i] <= '9'
  }

  function DigitChar(d: int): (c: char)
    requires 0 <= d < 10
    ensures '0' <= c <= '9'
  {
    (48 + d) as char
  }

  /** Decimal rendering of a non-negative count, without sign or grouping. */
  function NatToString(n: nat): (r: string)
    ensures |r| >= 1 && IsDigits(r)
    decreases n
  {
    if n < 10 then [DigitChar(n)] else NatToString(n / 10) + [DigitChar(n % 10)]
  }

  /** The number a string of decimal digits denotes. */
  function DigitsValue(s: string): nat
    requires IsDigits(s)
    decreases |s|
  {
    if |s| == 0 then 0
    else
      DigitsValue(s[..|s| - 1]) * 10 + (s[|s| - 1] as int - 48)
  }

  /** Reading the digits back gives the number rendered. */
  lemma {:induction false} NatToStringRoundTrip(n: nat)
    ensures DigitsValue(NatToString(n)) == n
    decreases n
  {
    if n >= 10 {
      NatToStringRoundTrip(n / 10);
      var s := NatToString(n);
      assert s[..|s| - 1] == NatToString(n / 10);
    }
  }

  lemma NatToStringInjective(a: nat, b: nat)
    requires NatToString(a) == NatToString(b)
    ensures a == b
  {
    NatToStringRoundTrip(a);
    NatToStringRoundTrip(b);
  }

  /** Two digit strings each followed by a '.' can only be equal as wholes if
      the digit strings are equal: the first '.' separates them. */
  lemma DigitsBeforeDot(p: string, x: string, q: string, y: string)
    requires IsDigits(p) && IsDigits(q)
    requires p + "." + x == q + "." + y
    ensures p == q && x == y
  {
    var l, r := p + "." + x, q + "." + y;
    var m := if |p| < |q| then |p| else |q|;
    assert l[m] == r[m];
    assert l[m] == '.' <==> m == |p|;
    assert r[m] == '.' <==> m == |q|;
    assert p == l[..|p|] && q == r[..|q|];
    assert x == l[|p| + 1..] && y == r[|q| + 1..];
  }
}

=== FILE: word_service.dfy ===
/** The word service: word creation with its duplicate-key check, the paged
    word queries, and the two mutators Translate and Tag, over an in-memory
    word repository. The pure functions here specify the repository's new
    contents; the class WordService performs the same steps in place. */
module Services {
  import opened Wrappers
  import opened Text
  import opened Entities
  import opened Paging

  /** The committed contents of the word repository, and the Id the database
      assigns to the next word it stores. */
  datatype Store = Store(words: seq<Word>, nextId: int)

  predicate IdsIncreasing(words: seq<Word>)
  {
    forall i, j :: 0 <= i < j < |words| ==> words[i].id < words[j].id
  }

  /** Database identities grow with every insert, so stored Ids are unique. */
  ghost predicate ValidStore(st: Store)
  {
    IdsIncreasing(st.words) && forall w <- st.words :: w.id < st.nextId
  }

  predicate UniqueKeys(words: seq<Word>)
  {
    forall i, j :: 0 <= i < j < |words| ==> words[i].key != words[j].key
  }

  lemma IdsIncreasingAreUnique(words: seq<Word>)
    requires IdsIncreasing(words)
    ensures UniqueIds(words)
  {
  }

  // ---------------------------------------------------------------------
  // Repository look-ups
  // ---------------------------------------------------------------------

  function KeyIs(key: string): Word -> bool
  {
    (w: Word) => w.key == key
  }

  predicate HasTagNamed(w: Word, name: string)
  {
    exists t <- w.tags :: t.name == name
  }

  /** The filter of Tag: the key matches and no tag of the word has that name. */
  function KeyIsAndUntagged(key: string, tagName: string): Word -> bool
  {
    (w: Word) => w.key == key && !HasTagNamed(w, tagName)
  }

  /** Repository.Any. */
  predicate Any(words: seq<Word>, p: Word -> bool)
  {
    exists w <- words :: p(w)
  }

  /** Repository.FindOne: the position of the first word the filter accepts. */
  function FindOne(words: seq<Word>, p: Word -> bool): (r: Option<nat>)
    ensures r.None? <==> !Any(words, p)
    ensures r.Some? ==> r.value < |words| && p(words[r.value])
    ensures r.Some? ==> forall j :: 0 <= j < r.value ==> !p(words[j])
    decreases |words|
  {
    if |words| == 0 then None
    else if p(words[0]) then Some(0)
    else
      assert forall w <- words[1..] :: w in words;
      match FindOne(words[1..], p)
      case None => None
      case Some(i) => Some(i + 1)
  }

  /** GetByKey: the stored word with that key, or None. */
  function GetByKey(words: seq<Word>, key: string): (r: Option<Word>)
    ensures r.None? <==> forall w <- words :: w.key != key
    ensures r.Some? ==> r.value in words && r.value.key == key
  {
    match FindOne(words, KeyIs(key))
    case None => None
    case Some(i) => Some(words[i])
  }

  /** With unique keys, GetByKey finds the one word that has the key. */
  lemma GetByKeyUnique(words: seq<Word>, key: string, i: int)
    requires UniqueKeys(words)
    requires 0 <= i < |words| && words[i].key == key
    ensures GetByKey(words, key) == Some(words[i])
  {
    assert words[i] in words && KeyIs(key)(words[i]);
    var j := FindOne(words, KeyIs(key)).value;
    assert words[j].key == key;
  }

  // ---------------------------------------------------------------------
  // Create
  // ---------------------------------------------------------------------

  /** The tag names of a comma-separated tag text: non-empty pieces only. */
  function TagNames(tag: string): seq<string>
  {
    SplitRemoveEmpty(tag, ',')
  }

  /** The field a language key selects: the first language, in the fixed
      order, whose resource key equals it. */
  function LanguageRoute(env: Env): string -> Option<Language>
  {
    k => Lookup(env.languageKey, k)
  }

  /** Entry `e` lands in language `l`'s field. */
  predicate Routes(route: string -> Option<Language>, e: TranslationEntry, l: Language)
  {
    route(e.languageKey) == Some(l)
  }

  /** The translation fields after the foreach over the entries: each entry is
      written to the field its language key selects; others change nothing. */
  function Translations(route: string -> Option<Language>, entries: seq<TranslationEntry>): map<Language, string>
    decreases |entries|
  {
    if |entries| == 0 then map[]
    else
      var before := Translations(route, entries[..|entries| - 1]);
      var e := entries[|entries| - 1];
      match route(e.languageKey)
      case None => before
      case Some(l) => before[l := e.value]
  }

  /** A field is set exactly when some entry routes to it, and then holds the
      value of the last such entry. */
  lemma {:induction false} TranslationsLastWins(route: string -> Option<Language>, entries: seq<TranslationEntry>, l: Language)
    ensures l in Translations(route, entries)
        <==> exists k :: 0 <= k < |entries| && Routes(route, entries[k], l)
    ensures forall k :: 0 <= k < |entries| && Routes(route, entries[k], l)
                     && (forall j :: k < j < |entries| ==> !Routes(route, entries[j], l))
                     ==> l in Translations(route, entries) && Translations(route, entries)[l] == entries[k].value
    decreases |entries|
  {
    if |entries| > 0 {
      var n := |entries|;
      var prefix := entries[..n - 1];
      TranslationsLastWins(route, prefix, l);
      assert forall k :: 0 <= k < n - 1 ==> prefix[k] == entries[k];
      if Routes(route, entries[n - 1], l) {
        assert l in Translations(route, entries);
      } else {
        assert l in Translations(route, entries) <==> l in Translations(route, prefix);
        if l in Translations(route, prefix) {
          assert Translations(route, entries)[l] == Translations(route, prefix)[l];
          var k :| 0 <= k < n - 1 && Routes(route, prefix[k], l);
          assert Routes(route, entries[k], l);
        }
      }
    }
  }

  /** The word Create stores for `model`, under database Id `id`. */
  function NewWord(env: Env, model: WordModel, id: int): Word
  {
    Word(
      id,
      env.slug(model.key),
      if model.description.Some? then model.description.value else "",
      model.isTranslated,
      |model.translations|,
      model.createdBy,
      model.createdBy,
      MakeTags(env.slug, TagNames(model.tag), model.createdBy),
      if model.isTranslated then Translations(LanguageRoute(env), model.translations) else map[])
  }

  /** What the created word holds. */
  lemma NewWordContents(env: Env, model: WordModel, id: int)
    ensures var w, names, entries := NewWord(env, model, id), TagNames(model.tag), model.translations;
      && w.key == env.slug(model.key)
      && w.description == (if model.description.Some? then model.description.value else "")
      && w.createdBy == model.createdBy && w.updatedBy == model.createdBy
      && w.translationCount == |entries|
      && w.isTranslated == model.isTranslated
      && |w.tags| == |names|
      && (forall k :: 0 <= k < |names| ==>
            w.tags[k] == Tag(names[k], env.slug(names[k]), model.createdBy)
            && names[k] != "" && ',' !in names[k])
      && (!model.isTranslated ==> w.translations == map[])
      && (model.isTranslated ==> forall l ::
            l in w.translations <==> exists k :: 0 <= k < |entries| && Routes(LanguageRoute(env), entries[k], l))
      && (model.isTranslated ==> forall l, k ::
            0 <= k < |entries| && Routes(LanguageRoute(env), entries[k], l)
            && (forall j :: k < j < |entries| ==> !Routes(LanguageRoute(env), entries[j], l))
            ==> w.translations[l] == entries[k].value)
  {
    var names := TagNames(model.tag);
    assert forall k :: 0 <= k < |names| ==> names[k] in names;
    forall l {
      TranslationsLastWins(LanguageRoute(env), model.translations, l);
    }
  }

  /** Create, as a function of the committed store: the result and the new store.
      `saved` is what SaveChanges reports. */
  function CreateStep(env: Env, st: Store, model: WordModel, saved: bool): (Option<string>, Store)
  {
    if !env.isValidForNew(model) then (None, st)
    else
      var slug := env.slug(model.key);
      if Any(st.words, KeyIs(slug)) then (None, st)
      else if !saved then (None, st)
      else (Some(slug), Store(st.words + [NewWord(env, model, st.nextId)], st.nextId + 1))
  }

  /** An invalid model, or one whose slugged key is already stored, is refused
      and changes nothing. */
  lemma CreateRejects(env: Env, st: Store, model: WordModel, saved: bool)
    requires !env.isValidForNew(model) || exists w <- st.words :: w.key == env.slug(model.key)
    ensures CreateStep(env, st, model, saved) == (None, st)
  {
    if env.isValidForNew(model) {
      var w :| w in st.words && w.key == env.slug(model.key);
      assert KeyIs(env.slug(model.key))(w);
    }
  }

  /** Create succeeds exactly when the model is valid, its slugged key is new
      and the commit succeeds; it then appends one word and returns the slug. */
  lemma CreateOutcome(env: Env, st: Store, model: WordModel, saved: bool)
    ensures var (r, st') := CreateStep(env, st, model, saved);
      && (r.Some? <==> env.isValidForNew(model) && saved
                       && forall w <- st.words :: w.key != env.slug(model.key))
      && (r.None? ==> st' == st)
      && (r.Some? ==> r.value == env.slug(model.key)
                      && st'.words == st.words + [NewWord(env, model, st.nextId)])
  {
    var slug := env.slug(model.key);
    if exists w <- st.words :: w.key == slug {
      CreateRejects(env, st, model, saved);
    }
  }

  /** Calling Create twice with the same model adds at most one word. */
  lemma CreateTwiceAddsAtMostOne(env: Env, st: Store, model: WordModel, saved1: bool, saved2: bool)
    ensures var (r1, st1) := CreateStep(env, st, model, saved1);
            var (r2, st2) := CreateStep(env, st1, model, saved2);
      && !(r1.Some? && r2.Some?)
      && |st2.words| <= |st.words| + 1
  {
    var (r1, st1) := CreateStep(env, st, model, saved1);
    if r1.Some? {
      var w := st1.words[|st1.words| - 1];
      assert w.key == env.slug(model.key);
      CreateRejects(env, st1, model, saved2);
    }
  }

  /** Create keeps Ids increasing and below the next Id, and keeps keys unique. */
  lemma CreateKeepsStoreValid(env: Env, st: Store, model: WordModel, saved: bool)
    ensures ValidStore(st) ==> ValidStore(CreateStep(env, st, model, saved).1)
    ensures UniqueKeys(st.words) ==> UniqueKeys(CreateStep(env, st, model, saved).1.words)
  {
    CreateOutcome(env, st, model, saved);
  }

  /** After a successful Create the new key is found by GetByKey. */
  lemma CreatedWordIsRetrievable(env: Env, st: Store, model: WordModel, saved: bool)
    requires CreateStep(env, st, model, saved).0.Some?
    ensures var st' := CreateStep(env, st, model, saved).1;
      GetByKey(st'.words, env.slug(model.key)) == Some(NewWord(env, model, st.nextId))
  {
    CreateOutcome(env, st, model, saved);
    var st' := CreateStep(env, st, model, saved).1;
    var slug := env.slug(model.key);
    assert st'.words[|st.words|].key == slug;
    assert st'.words[|st.words|] in st'.words && KeyIs(slug)(st'.words[|st.words|]);
    assert forall k :: 0 <= k < |st.words| ==> st'.words[k] == st.words[k];
    assert forall k :: 0 <= k < |st.words| ==> st.words[k] in st.words;
    var j := FindOne(st'.words, KeyIs(slug)).value;
    assert j == |st.words|;
  }

  // ---------------------------------------------------------------------
  // Translate and Tag
  // ---------------------------------------------------------------------

  /** Translate, as a function of the committed words: its result and the new words. */
  function TranslateStep(env: Env, words: seq<Word>, key: string, language: string,
                         translation: string, saved: bool): (bool, seq<Word>)
  {
    if key == "" || language == "" || translation == "" then (false, words)
    else
      match FindOne(words, KeyIs(key))
      case None => (false, words)
      case Some(i) =>
        match Lookup(Code, env.toUpperInvariant(language))
        case None => (false, words)
        case Some(l) =>
          if !saved then (false, words)
          else (true, words[i := Translated(words[i], l, translation)])
  }

  /** The word after a translation into field `l`. */
  function Translated(w: Word, l: Language, translation: string): Word
  {
    w.(translations := w.translations[l := translation],
       translationCount := Int32Increment(w.translationCount),
       isTranslated := true)
  }

  /** Translate succeeds exactly when all three texts are non-empty, a word has
      the key, the upper-cased language names a language field and the commit
      succeeds. It then sets that field of the first word with the key, counts
      one more translation (an unchecked Int32 increment) and marks the word
      translated; nothing else changes. */
  lemma TranslateOutcome(env: Env, words: seq<Word>, key: string, language: string,
                         translation: string, saved: bool)
    ensures var (ok, words') := TranslateStep(env, words, key, language, translation, saved);
      && (ok <==> && saved && key != "" && language != "" && translation != ""
                  && (exists w <- words :: w.key == key)
                  && (exists l :: Code(l) == env.toUpperInvariant(language)))
      && (!ok ==> words' == words)
      && (ok ==>
            var i := FindOne(words, KeyIs(key)).value;
            var l := Lookup(Code, env.toUpperInvariant(language)).value;
            && words[i].key == key
            && Code(l) == env.toUpperInvariant(language)
            && |words'| == |words|
            && (forall j :: 0 <= j < |words| && j != i ==> words'[j] == words[j])
            && words'[i].translations == words[i].translations[l := translation]
            && words'[i].translationCount == Int32Increment(words[i].translationCount)
            && words'[i].isTranslated
            && words'[i].(translations := words[i].translations,
                          translationCount := words[i].translationCount,
                          isTranslated := words[i].isTranslated) == words[i])
  {
    assert (exists w <- words :: w.key == key) <==> Any(words, KeyIs(key));
  }

  /** Translate with an unrecognised language code fails and changes nothing. */
  lemma TranslateUnknownLanguage(env: Env, words: seq<Word>, key: string, language: string,
                                 translation: string, saved: bool)
    requires forall l :: Code(l) != env.toUpperInvariant(language)
    ensures TranslateStep(env, words, key, language, translation, saved) == (false, words)
  {
    TranslateOutcome(env, words, key, language, translation, saved);
  }

  /** Tag, as a function of the committed words: its result and the new words. */
  function TagStep(env: Env, words: seq<Word>, key: string, tagName: string, saved: bool): (bool, seq<Word>)
  {
    if key == "" || tagName == "" then (false, words)
    else
      match FindOne(words, KeyIsAndUntagged(key, tagName))
      case None => (false, words)
      case Some(i) =>
        if !saved then (false, words)
        else (true, words[i := words[i].(tags := [Tag(tagName, env.slug(tagName), 1)])])
  }

  /** Tag succeeds exactly when both texts are non-empty, some word with the key
      has no tag of that name, and the commit succeeds. It then replaces the tag
      list of the first such word by the one new tag; nothing else changes. */
  lemma TagOutcome(env: Env, words: seq<Word>, key: string, tagName: string, saved: bool)
    ensures var (ok, words') := TagStep(env, words, key, tagName, saved);
      && (ok <==> && saved && key != "" && tagName != ""
                  && exists w <- words :: w.key == key && !HasTagNamed(w, tagName))
      && (!ok ==> words' == words)
      && (ok ==>
            var i := FindOne(words, KeyIsAndUntagged(key, tagName)).value;
            && words[i].key == key && !HasTagNamed(words[i], tagName)
            && |words'| == |words|
            && (forall j :: 0 <= j < |words| && j != i ==> words'[j] == words[j])
            && words'[i] == words[i].(tags := [Tag(tagName, env.slug(tagName), 1)]))
  {
    var p := KeyIsAndUntagged(key, tagName);
    assert (exists w <- words :: w.key == key && !HasTagNamed(w, tagName)) <==> Any(words, p);
  }

  /** Positions whose words keep their keys keep the first match of a key. */
  lemma FindOneKeySameKeys(words: seq<Word>, words': seq<Word>, key: string)
    requires |words'| == |words|
    requires forall j :: 0 <= j < |words| ==> words'[j].key == words[j].key
    ensures FindOne(words', KeyIs(key)) == FindOne(words, KeyIs(key))
  {
    var p := KeyIs(key);
    if FindOne(words, p).Some? {
      var i := FindOne(words, p).value;
      assert p(words'[i]) && words'[i] in words';
      var j := FindOne(words', p).value;
      assert p(words[j]);
      assert j == i;
    } else {
      forall w <- words' ensures !p(w) {
        var j :| 0 <= j < |words'| && words'[j] == w;
        assert words[j] in words;
      }
    }
  }

  /** After a successful Translate, GetByKey finds the word with the new
      translation in its field and one more translation counted (as an Int32). */
  lemma TranslatedWordIsRetrievable(env: Env, words: seq<Word>, key: string, language: string,
                                    translation: string, saved: bool)
    requires TranslateStep(env, words, key, language, translation, saved).0
    ensures var words' := TranslateStep(env, words, key, language, translation, saved).1;
            var l := Lookup(Code, env.toUpperInvariant(language)).value;
            var w := GetByKey(words, key).value;
      && GetByKey(words', key).Some?
      && GetByKey(words', key).value.translations == w.translations[l := translation]
      && GetByKey(words', key).value.translationCount == Int32Increment(w.translationCount)
      && GetByKey(words', key).value.isTranslated
  {
    TranslateOutcome(env, words, key, language, translation, saved);
    var words' := TranslateStep(env, words, key, language, translation, saved).1;
    FindOneKeySameKeys(words, words', key);
  }

  /** With unique keys, tagging a word with a tag name it already carries fails
      and leaves every word, and so its tags, unchanged. */
  lemma TagAlreadyPresent(env: Env, words: seq<Word>, i: int, tagName: string, saved: bool)
    requires UniqueKeys(words)
    requires 0 <= i < |words| && HasTagNamed(words[i], tagName)
    ensures TagStep(env, words, words[i].key, tagName, saved) == (false, words)
  {
    var key := words[i].key;
    TagOutcome(env, words, key, tagName, saved);
    forall w | w in words && w.key == key ensures HasTagNamed(w, tagName) {
      var j :| 0 <= j < |words| && words[j] == w;
      assert j == i;
    }
  }

  /** Tagging the same word with the same name a second time fails. */
  lemma TagTwiceFails(env: Env, words: seq<Word>, key: string, tagName: string, saved1: bool, saved2: bool)
    requires UniqueKeys(words)
    requires TagStep(env, words, key, tagName, saved1).0
    ensures var words' := TagStep(env, words, key, tagName, saved1).1;
      TagStep(env, words', key, tagName, saved2) == (false, words')
  {
    TagOutcome(env, words, key, tagName, saved1);
    var words' := TagStep(env, words, key, tagName, saved1).1;
    var i := FindOne(words, KeyIsAndUntagged(key, tagName)).value;
    assert words'[i].tags[0].name == tagName;
    assert UniqueKeys(words') by {
      forall a, b | 0 <= a < b < |words'| ensures words'[a].key != words'[b].key {
        assert words'[a].key == words[a].key && words'[b].key == words[b].key;
      }
    }
    TagAlreadyPresent(env, words', i, tagName, saved2);
  }

  // ---------------------------------------------------------------------
  // Paged queries
  // ---------------------------------------------------------------------

  function ByAuthor(userId: int): Word -> bool
  {
    (w: Word) => w.createdBy == userId
  }

  predicate Untranslated(w: Word)
  {
    !w.isTranslated
  }

  /** GetByUserId: None for a user id below 1, otherwise the page of that
      user's words. */
  function GetByUserId(pageSize: PosNat, words: seq<Word>, userId: int, pageNumber: int): (r: Option<PagedList>)
    ensures r.None? <==> userId < 1
    ensures r.Some? ==> var page := r.value;
      && 1 <= page.number
      && page.totalCount == |Where(words, ByAuthor(userId))|
      && |page.items| <= pageSize
      && (forall w <- page.items :: w in words && w.createdBy == userId)
      && IdsNonIncreasing(page.items)
      && (UniqueIds(words) ==> IdsDecreasing(page.items))
    ensures r.Some? ==> var matching := Where(words, ByAuthor(userId));
      && r.value.number == (if 1 <= pageNumber <= PageCount(|matching|, pageSize) then pageNumber else 1)
      && r.value == PageAt(pageSize, matching, r.value.number)
  {
    if userId < 1 then None
    else
      var matching := Where(words, ByAuthor(userId));
      OneBasedPageShape(pageSize, matching, pageNumber);
      WhereKeepsUniqueIds(words, ByAuthor(userId));
      OneBasedPageContents(pageSize, matching, pageNumber);
      Some(OneBasedPage(pageSize, matching, pageNumber))
  }

  /** GetNotTranslated: the page of the words not yet translated. */
  function GetNotTranslated(pageSize: PosNat, words: seq<Word>, pageNumber: int): (r: PagedList)
    ensures 1 <= r.number
    ensures r.totalCount == |Where(words, Untranslated)|
    ensures |r.items| <= pageSize
    ensures forall w <- r.items :: w in words && !w.isTranslated
    ensures IdsNonIncreasing(r.items)
    ensures UniqueIds(words) ==> IdsDecreasing(r.items)
    ensures var matching := Where(words, Untranslated);
      && r.number == (if 1 <= pageNumber <= PageCount(|matching|, pageSize) then pageNumber else 1)
      && r == PageAt(pageSize, matching, r.number)
  {
    var matching := Where(words, Untranslated);
    OneBasedPageShape(pageSize, matching, pageNumber);
    OneBasedPageContents(pageSize, matching, pageNumber);
    WhereKeepsUniqueIds(words, Untranslated);
    OneBasedPage(pageSize, matching, pageNumber)
  }

  /** Any page below 1 or past the last page of a user's words gives page 1. */
  lemma GetByUserIdOutOfRange(pageSize: PosNat, words: seq<Word>, userId: int, pageNumber: int)
    requires pageNumber < 1 || pageNumber > PageCount(|Where(words, ByAuthor(userId))|, pageSize)
    ensures GetByUserId(pageSize, words, userId, pageNumber) == GetByUserId(pageSize, words, userId, 1)
  {
    if userId >= 1 {
      OutOfRangePageIsFirstPage(pageSize, Where(words, ByAuthor(userId)), pageNumber);
    }
  }

  /** Any page below 1 or past the last page of untranslated words gives page 1. */
  lemma GetNotTranslatedOutOfRange(pageSize: PosNat, words: seq<Word>, pageNumber: int)
    requires pageNumber < 1 || pageNumber > PageCount(|Where(words, Untranslated)|, pageSize)
    ensures GetNotTranslated(pageSize, words, pageNumber) == GetNotTranslated(pageSize, words, 1)
  {
    OutOfRangePageIsFirstPage(pageSize, Where(words, Untranslated), pageNumber);
  }

  /** Untranslated words on page k are strictly newer than those on page k + 1. */
  lemma GetNotTranslatedPagesDescend(pageSize: PosNat, words: seq<Word>, k: int)
    requires UniqueIds(words)
    requires 1 <= k < PageCount(|Where(words, Untranslated)|, pageSize)
    ensures var p, q := GetNotTranslated(pageSize, words, k).items, GetNotTranslated(pageSize, words, k + 1).items;
      forall a, b :: 0 <= a < |p| && 0 <= b < |q| ==> p[a].id > q[b].id
  {
    WhereKeepsUniqueIds(words, Untranslated);
    EarlierPageIsNewer(pageSize, Where(words, Untranslated), k);
  }

  /** A user's words on page k are strictly newer than those on page k + 1. */
  lemma GetByUserIdPagesDescend(pageSize: PosNat, words: seq<Word>, userId: int, k: int)
    requires userId >= 1 && UniqueIds(words)
    requires 1 <= k < PageCount(|Where(words, ByAuthor(userId))|, pageSize)
    ensures var p, q := GetByUserId(pageSize, words, userId, k).value.items,
                        GetByUserId(pageSize, words, userId, k + 1).value.items;
      forall a, b :: 0 <= a < |p| && 0 <= b < |q| ==> p[a].id > q[b].id
  {
    WhereKeepsUniqueIds(words, ByAuthor(userId));
    EarlierPageIsNewer(pageSize, Where(words, ByAuthor(userId)), k);
  }

  /** GetWords as written: the page is made zero-based before the range check,
      so the reset goes to index 1 and the reported number is zero-based. */
  function GetWords(pageSize: PosNat, words: seq<Word>, pageNumber: int): (r: PagedList)
    ensures r.totalCount == |words| && |r.items| <= pageSize
    ensures pageNumber <= 1 ==> r.number == 0
    ensures 1 <= pageNumber <= PageCount(|words|, pageSize) + 1 ==> r.number == pageNumber - 1
    ensures pageNumber > PageCount(|words|, pageSize) + 1 ==> r.number == 1
    ensures r.number >= 0 && r.items == Window(SortByIdDesc(words), ItemsBefore(pageSize, r.number), pageSize)
  {
    var page := ClampPage(pageNumber) - 1;
    var number := if page > PageCount(|words|, pageSize) then 1 else page;
    PagedList(number, pageSize, |words|, Window(SortByIdDesc(words), ItemsBefore(pageSize, number), pageSize))
  }

  /** Requesting the page just past the last one yields no words at all. */
  lemma GetWordsPastLastPageIsEmpty(pageSize: PosNat, words: seq<Word>, pageNumber: int)
    requires pageNumber == PageCount(|words|, pageSize) + 1
    ensures GetWords(pageSize, words, pageNumber).items == []
  {
    var n := pageNumber - 1;
    PageCountIsCeiling(|words|, pageSize);
    assert GetWords(pageSize, words, pageNumber).number == n;
    var sorted := SortByIdDesc(words);
    assert |multiset(sorted)| == |multiset(words)|;
    assert ItemsBefore(pageSize, n) >= |sorted|;
  }

  /** Any page further out gives the second page, not the first. */
  lemma GetWordsFarPageIsSecondPage(pageSize: PosNat, words: seq<Word>, pageNumber: int)
    requires pageNumber > PageCount(|words|, pageSize) + 1
    ensures GetWords(pageSize, words, pageNumber) == GetWords(pageSize, words, 2)
  {
  }

  /** The concrete case: with one stored word, page 2 of GetWords is empty and
      page 1 reports number 0, where the one-based rule gives the word under page 1. */
  lemma GetWordsOffByOne(pageSize: PosNat, w: Word)
    ensures GetWords(pageSize, [w], 1).number == 0
    ensures GetWords(pageSize, [w], 2).items == []
    ensures GetWordsOneBased(pageSize, [w], 2) == PagedList(1, pageSize, 1, [w])
  {
    assert PageCount(1, pageSize) == 1;
    assert SortByIdDesc([w]) == [w];
    GetWordsPastLastPageIsEmpty(pageSize, [w], 2);
  }

  /** Within the page range GetWords shows the same words as the one-based rule. */
  lemma GetWordsInRangeAgrees(pageSize: PosNat, words: seq<Word>, pageNumber: int)
    requires 1 <= pageNumber <= PageCount(|words|, pageSize)
    ensures GetWords(pageSize, words, pageNumber).items == GetWordsOneBased(pageSize, words, pageNumber).items
    ensures GetWords(pageSize, words, pageNumber).number == GetWordsOneBased(pageSize, words, pageNumber).number - 1
  {
    OneBasedPageContents(pageSize, words, pageNumber);
  }

  /** Within the page range, GetWords' page k holds words at least as recent as
      its page k + 1, strictly more recent when Ids are unique. Past the range
      every request maps to index 1, so the order is stated only within it. */
  lemma GetWordsPagesDescend(pageSize: PosNat, words: seq<Word>, k: int)
    requires 1 <= k < PageCount(|words|, pageSize)
    ensures var p, q := GetWords(pageSize, words, k).items, GetWords(pageSize, words, k + 1).items;
      forall a, b :: 0 <= a < |p| && 0 <= b < |q| ==>
        p[a].id >= q[b].id && (UniqueIds(words) ==> p[a].id > q[b].id)
  {
    GetWordsInRangeAgrees(pageSize, words, k);
    GetWordsInRangeAgrees(pageSize, words, k + 1);
    EarlierPageIsNewer(pageSize, words, k);
  }

  /** GetWords with the paging rule of the other two queries. */
  function GetWordsOneBased(pageSize: PosNat, words: seq<Word>, pageNumber: int): (r: PagedList)
    ensures 1 <= r.number && r.totalCount == |words| && |r.items| <= pageSize
    ensures IdsNonIncreasing(r.items) && forall w <- r.items :: w in words
  {
    OneBasedPageShape(pageSize, words, pageNumber);
    OneBasedPage(pageSize, words, pageNumber)
  }

  /** With the one-based rule, any out-of-range page is page 1. */
  lemma GetWordsOneBasedOutOfRange(pageSize: PosNat, words: seq<Word>, pageNumber: int)
    requires pageNumber < 1 || pageNumber > PageCount(|words|, pageSize)
    ensures GetWordsOneBased(pageSize, words, pageNumber) == GetWordsOneBased(pageSize, words, 1)
  {
    OutOfRangePageIsFirstPage(pageSize, words, pageNumber);
  }

  // ---------------------------------------------------------------------
  // The loops of Create
  // ---------------------------------------------------------------------

  /** The tag loop of Create: one tag per name, in order. */
  method BuildTags(slug: string -> string, names: seq<string>, createdBy: int) returns (tags: seq<Tag>)
    ensures tags == MakeTags(slug, names, createdBy)
  {
    tags := [];
    var i := 0;
    while i < |names|
      invariant 0 <= i <= |names|
      invariant tags == MakeTags(slug, names[..i], createdBy)
    {
      tags := tags + [Tag(names[i], slug(names[i]), createdBy)];
      i := i + 1;
    }
    assert names[..i] == names;
  }

  /** The translation loop of Create: each entry written to its field in turn. */
  method TranslationFields(route: string -> Option<Language>, entries: seq<TranslationEntry>)
    returns (fields: map<Language, string>)
    ensures fields == Translations(route, entries)
  {
    fields := map[];
    var j := 0;
    while j < |entries|
      invariant 0 <= j <= |entries|
      invariant fields == Translations(route, entries[..j])
    {
      var item := entries[j];
      assert entries[..j + 1][..j] == entries[..j];
      var field := route(item.languageKey);
      if field.Some? {
        fields := fields[field.value := item.value];
      }
      j := j + 1;
    }
    assert entries[..j] == entries;
  }

  // ---------------------------------------------------------------------
  // The service object
  // ---------------------------------------------------------------------

  class WordService {
    const env: Env
    var words: seq<Word>
    var nextId: int

    ghost predicate Valid()
      reads this
    {
      ValidStore(Store(words, nextId))
    }

    function State(): Store
      reads this
    {
      Store(words, nextId)
    }

    /** A valid service's words have distinct Ids, as the strict page-order
        lemmas of its paged queries require. */
    lemma StoredIdsUnique()
      requires Valid()
      ensures UniqueIds(words)
    {
      IdsIncreasingAreUnique(words);
    }

    constructor (env: Env, initial: seq<Word>)
      requires IdsIncreasing(initial)
      ensures Valid() && words == initial
    {
      this.env := env;
      words := initial;
      nextId := if |initial| == 0 then 1 else initial[|initial| - 1].id + 1;
    }

    method Create(model: WordModel, saved: bool) returns (r: Option<string>)
      requires Valid()
      modifies this
      ensures Valid()
      ensures (r, State()) == CreateStep(env, old(State()), model, saved)
    {
      if !env.isValidForNew(model) {
        return None;
      }
      var slug := env.slug(model.key);
      if FindOne(words, KeyIs(slug)).Some? {
        return None;
      }

      var tags := BuildTags(env.slug, TagNames(model.tag), model.createdBy);
      var translations: map<Language, string> := map[];
      if model.isTranslated {
        translations := TranslationFields(LanguageRoute(env), model.translations);
      }
      var word := Word(
        0, slug, if model.description.Some? then model.description.value else "",
        model.isTranslated, |model.translations|, model.createdBy, model.createdBy,
        tags, translations);

      if !saved {
        return None;
      }
      assert word.(id := nextId) == NewWord(env, model, nextId);
      words := words + [word.(id := nextId)];
      nextId := nextId + 1;
      r := Some(word.key);
    }

    method Translate(key: string, language: string, translation: string, saved: bool) returns (ok: bool)
      requires Valid()
      modifies this
      ensures Valid() && nextId == old(nextId)
      ensures (ok, words) == TranslateStep(env, old(words), key, language, translation, saved)
    {
      if key == "" || language == "" || translation == "" {
        return false;
      }
      var found := FindOne(words, KeyIs(key));
      if found.None? {
        return false;
      }
      var field := Lookup(Code, env.toUpperInvariant(language));
      if field.None? {
        return false;
      }
      var i, l := found.value, field.value;
      var word := Translated(words[i], l, translation);
      if !saved {
        return false;
      }
      words := words[i := word];
      ok := true;
    }

    method Tag(key: string, tagName: string, saved: bool) returns (ok: bool)
      requires Valid()
      modifies this
      ensures Valid() && nextId == old(nextId)
      ensures (ok, words) == TagStep(env, old(words), key, tagName, saved)
    {
      if key == "" || tagName == "" {
        return false;
      }
      var found := FindOne(words, KeyIsAndUntagged(key, tagName));
      if found.None? {
        return false;
      }
      var i := found.value;
      var tag := Entities.Tag(tagName, env.slug(tagName), 1);
      var word := words[i].(tags := [tag]);
      if !saved {
        return false;
      }
      words := words[i := word];
      ok := true;
    }

    /** GetAll: every stored word, in store order. */
    method GetAll() returns (r: seq<Word>)
      ensures r == words
    {
      r := words;
    }
  }
}

=== FILE: wrappers.dfy ===
/** Optional values and results: the model's stand-ins for a C# reference that
    may be null and for an operation that may throw. */
module Wrappers {

  datatype Option<+T> = None | Some(value: T)

  datatype Result<+T, +E> = Ok(value: T) | Failure(error: E)
}
